=== FILE: README.md ===
# Unmapper, modelled in Dafny

The unmapper is a browser tool. It takes a JavaScript source map (a JSON
document with a `sources` array of paths and a parallel `sourcesContent`
array of embedded file texts) and recovers the original files.

Its main page (`script.js`) does the following:

- classifies each file as skipped (fonts, images, embedded image/font data
  URLs), binary, empty or code;
- validates the map and summarises it per extension;
- renders the displayable files fifty at a time behind a page cursor;
- keeps a side table of binary files that a download button looks up;
- escapes the paths, contents and download names it puts into HTML; the
  extensions and the version go in unescaped (see Findings);
- can scan the output for secrets and endpoints.

A second page (`app.js`) starts from a script URL instead. It finds the
script's `//# sourceMappingURL=` comment, resolves the map's URL, and pairs
each source path with its content.

The model follows the program's structure, one module per concern:

- `Wrappers`, `Seqs` (wrappers.dfy): `Option`/`Result`, distinctness of sequences
- `Strings` (strings.dfy): the JavaScript string operations used: `split`/`pop`/`join`, `startsWith`, ASCII `toLowerCase`, `trim`, `indexOf`, decimal conversion, truthiness
- `Classifier` (classifier.dfy): `detectFileType`, with its counting loop as a method
- `Escape` (escape.dfy): `escapeHtml` as five replacement passes, plus a reference per-character definition and a decoder
- `Unmapper` (unmapper.dfy): the document, the validation order, the extension tally (a method with a loop) and the ranking sort of `unmapSourceMap`
- `Renderer` (renderer.dfy): `renderFilesPage`, `downloadBinary` and the page state, as a `Session` class with a paging method proved against the filter of displayable files
- `Scanner` (scanner.dfy): the aggregation of `findSecrets` / `findEndpoints`: deduplication, the total, the 50-entry cap and its overflow count
- `App` (app.dfy): `unmapJS`: URL extraction, relative-URL resolution, source/content pairing, and the order of its errors

The classifier, the tally and the pages are written for any function of the
classifier's shape (`Detector`). The session's constructor fixes it to
`DetectFileType`, so the paging proofs need nothing of the classifier's
internals. Rendered files are recorded as `Block` values that hold the
decisions the HTML encodes: index, path, content, type, collapsed flag, and
whether the body is a download button, the escaped text or the empty note.
The HTML fragments themselves (`PathHtml`, `BodyHtml`, …) are functions of a
block.

## Model

| member | source | states |
|---|---|---|
| Classifier.DetectFileType | script.js:252-303 | `detectFileType`: the cascade of extension tests, the dotless rule, then the content tests; its properties are stated by `ExtensionDecidesFirst`, `NoDotRule`, `ContentRules` and `FalsyContentNeverCode` |
| Classifier.Extension | script.js:253 | `split('.').pop().toLowerCase()`; its shape is stated by `ExtensionAfterLastDot` |
| Classifier.CountNonPrintable | script.js:289-297 | the loop counts exactly the non-printable characters (code < 32, not tab/LF/CR) among the first `min(length, 1000)` characters, so at most 1000 |
| Classifier.NonPrintableCount | script.js:294-296 | the count of non-printable characters never exceeds the length of the text |
| Classifier.NoNonPrintable | script.js:294-298 | text made only of printable characters has a count of zero, so it never looks binary |
| Classifier.ExtensionAfterLastDot | script.js:253 | the extension holds no dot; without a dot it is the whole lowered name; with a dot the path is some prefix, a dot, and the last dot-segment |
| Classifier.NameEqualsExtensionOnlyWithoutDot | script.js:274 | `filename === ext \|\| !filename.includes('.')` is equivalent to `!filename.includes('.')` |
| Classifier.ExtensionDecidesFirst | script.js:253-271 | a font, image or binary-list extension decides the type and label whatever the content is |
| Classifier.NoDotRule | script.js:253-276 | a dotless path is skipped or plain binary when its whole lowered name is a listed extension, and binary "NO EXTENSION" otherwise, whatever its content |
| Classifier.ContentRules | script.js:278-302 | for a path with a dot and an unlisted extension: empty iff the content is falsy; skip iff it is an image/font data URL; binary iff it is another data URL or more than a tenth of the sample is non-printable; code otherwise |
| Classifier.FalsyContentNeverCode | script.js:278 | `null`, `undefined` or `""` content is never classified as code |
| Classifier.ListsDisjoint | script.js:256-268 | the font, image and binary lists share no extension |
| Classifier.ExampleUpperCaseImage | script.js:253-265 | `x.PNG` with binary-looking content is skipped as an image |
| Classifier.ExampleDotlessFont | script.js:253-258 | the dotless name `WOFF` is skipped as a font |
| Classifier.ExampleDotlessBinary | script.js:253-270 | the dotless name `bin` is "BINARY", not "NO EXTENSION" |
| Classifier.ExampleNoExtension | script.js:274-276 | `LICENSE` is binary "NO EXTENSION" even with text content |
| Classifier.ExampleDotInDirectory | script.js:253-278 | in `a.b/c` the extension is `b/c`, so the dotless rule does not apply and absent content is empty |
| Classifier.ExampleEmptyScript | script.js:278 | `a.js` with `""` content is empty |
| Classifier.ExampleScript | script.js:289-302 | `a.js` holding ordinary code is code |
| Escape.EscapeHtml | script.js:311-319 | `escapeHtml` as its five ordered global replacements; `EscapeHtmlIsPerChar`, `EscapeHtmlSafe` and `EscapeRoundTrip` state what it computes |
| Escape.PassesEscapeEachChar | script.js:313-318 | because `&` is replaced first, the five passes escape each character on its own |
| Escape.EscapeHtmlIsPerChar | script.js:311-318 | `escapeHtml` gives `''` for absent input and otherwise each character's entity in order |
| Escape.EscapeHtmlSafe | script.js:311-318 | the output has no raw `<`, `>`, `"` or `'`, and every `&` in it starts one of the five entities |
| Escape.EscapeRoundTrip | script.js:311-318 | decoding the five entities of the output recovers the input |
| Escape.UnescapeEscapeEach | script.js:313-318 | decoding undoes the per-character escaping |
| Escape.ReplaceAllConcat | script.js:314 | a global replacement of one character distributes over concatenation |
| Unmapper.ExtKey | script.js:88 | the key a file is counted under, `'unknown'` for an empty extension; `CountStep` and `TallyExtensions` use it as the reference key |
| Unmapper.CountStep | script.js:82-89 | one more source adds one to its key's count exactly when it is not skipped |
| Unmapper.EntriesMembers | script.js:93 | `Object.entries` lists each counted key once, with its count |
| Unmapper.TallyExtensions | script.js:79-90 | the loop's skip counter is the number of skipped files; each key's count is the number of non-skipped files with that key; no count is zero; keys are listed once each; counts plus skips equal the number of sources |
| Unmapper.TallyOnObjectAgrees | script.js:80-89 | the tally on a plain object, as the page does it, agrees with the reference counts and skips as long as no counted file's key is `__proto__` or `constructor` |
| Unmapper.ProtoFileUncounted | script.js:80-89 | on a plain object a code file `a.__proto__` is neither counted nor skipped, though the reference tally counts it |
| Unmapper.ConstructorCountIsText | script.js:80-93 | on a plain object the "count" of `a.constructor` is the string `function Object() { [native code] }1` |
| Unmapper.SortByCount | script.js:93 | the ranking by descending count, stable; `SortSorted`, `SortPermutation` and `SortTotal` state its properties |
| Unmapper.SortSorted | script.js:93 | the ranking is in descending order of count |
| Unmapper.SortPermutation | script.js:93 | the ranking is a permutation of the entries |
| Unmapper.SortTotal | script.js:93 | ranking keeps the sum of the counts |
| Unmapper.RankingMembers | script.js:93 | the ranking holds exactly the counted keys, each with its count |
| Unmapper.RankingSize | script.js:93 | the ranking has one entry per key |
| Unmapper.RankedTally | script.js:79-93 | the tally, ranked, is a summary of the sources |
| Unmapper.Summarize | script.js:60-93 | the header is always produced; a missing or empty `sources` fails first, then a missing or empty `sourcesContent`; otherwise the result is a summary of the sources |
| Renderer.DisplayableMembers | script.js:195-197 | the filter holds exactly the indices whose files are not skipped |
| Renderer.DisplayableIncreasing | script.js:195-197 | the filter lists its indices in ascending order, none twice |
| Renderer.DisplayableCount | script.js:195-197 | displayable plus skipped files make up all the sources |
| Renderer.DisplayableIsCounted | script.js:195-197 | the total in the footer equals the sum of the extension counts of the summary |
| Renderer.PagesConcatenate | script.js:131-153 | the pages one after another are the first `pages*50` displayable indices, and all of them once the pages reach the end |
| Renderer.PastTheEnd | script.js:131-153 | a page past the end emits nothing |
| Renderer.PageMembers | script.js:136-153 | a page holds at most 50 indices, in ascending order, namely the displayable ones at filter positions `page*50 .. page*50+49` |
| Renderer.FooterTruthful | script.js:192-207 | the footer says "all loaded" iff every displayable file is shown, and otherwise counts the files shown, fewer than the total |
| Renderer.BlockTextSafe | script.js:161-183 | path and body text of a block carry no markup and decode back to the path and the content; the extension escaped as the path is (`ExtHtml`) carries no markup and decodes back to the extension |
| Renderer.RawExtensionMarkup | script.js:155-165 | the code file `a.<script>` is displayed, and the extension the page writes raw into `data-ext` and the `.ext` badge, and into the summary badge at line 94, contains `<` |
| Renderer.HeaderBadges | script.js:162-170 | the size badge appears iff the body is not the empty note and shows the content's length; with the page's classifier a displayed block without the `.ext` badge is labelled binary |
| Renderer.BlocksOfConcat | script.js:191 | the blocks of two runs of files are the blocks of each, appended |
| Renderer.RegisterAllConcat | script.js:173-176 | registering two runs of files is registering the first, then the second |
| Renderer.BlockOf | script.js:155-187 | the block of a shown file: index, path, content, type, collapsed flag, and a download body for binary files with truthy content, the text for other truthy content, the empty note otherwise; `BlockTextSafe` states what its HTML shows |
| Renderer.Register | script.js:173-176 | the side table after a shown file: its `binary_<idx>` record when it is binary with truthy content, unchanged otherwise; `RegisteredLookup` and `RegisteredKeys` state the table's contents |
| Renderer.BinaryName | script.js:176 | the last `/`-segment of the path, or `binary_file` when it is empty; `Strings.LastSegmentShape` states what the last segment is |
| Renderer.BinaryKey | script.js:175 | `'binary_' + idx`; `BinaryKeyInjective` states that keys of different files differ |
| Renderer.FooterAfter | script.js:199-208 | the load-more button with `currentPage*50` shown, or "all loaded"; `FooterTruthful` states what it reports |
| Renderer.BinaryKeyInjective | script.js:175 | different indices get different `"binary_"+idx` keys |
| Renderer.RegisteredLookup | script.js:173-176 | after registering distinct files, a file's key is present iff it was among them and is binary with truthy content, and it maps to that content and the last `/`-segment of its path |
| Renderer.RegisteredKeys | script.js:175-176 | every key of the table belongs to a registered binary file |
| Renderer.RenderFile | script.js:155-187 | a shown file's block and the table update: a download body and a registration for binary files with truthy content, the escaped text for other truthy content, the empty note otherwise |
| Renderer.Advance | script.js:136-153 | one turn of the paging loop keeps the loop invariant: files before the page are counted when displayable, files on the page are passed over when skipped and emitted otherwise |
| Renderer.AdvanceOnPage | script.js:144-153 | a turn once the page has been reached keeps the loop invariant |
| Renderer.CollectPage | script.js:130-189 | the loop emits exactly the page's slice of the filter, with the blocks of those files and the table with their binary files registered |
| Renderer.NextPage | script.js:191-207 | one more page appends its blocks and registrations to those of the earlier pages and sets the footer for the new cursor |
| Renderer.Session.constructor | script.js:1-4 | the page starts with no map, a cursor of zero, an empty side table and no files on the page |
| Renderer.Session.UnmapSourceMap | script.js:51-119 | the map and a zero cursor are stored first; a failing map leaves no files on the page and the table as it was; a usable one empties the table and opens an empty container; the report carries the header and either the first validation error or a summary of the sources |
| Renderer.Session.ReplaceOutput | script.js:335-343 | replacing the output removes the files but keeps the map, the cursor and the table |
| Renderer.Session.RenderPage | script.js:122-209 | without a map or container nothing changes; otherwise it emits the page at the cursor, appends its blocks, registers its binary files, advances the cursor and sets the footer, keeping the session invariant |
| Renderer.Session.DownloadBinary | script.js:236-238 | the lookup returns the registered record, or not-found |
| Renderer.Session.DownloadRoundTrip | script.js:173-176 | while files are on the page, file `i`'s key is present iff `i` has been shown and is binary with truthy content, and the record holds its content and name |
| Scanner.Dedup | script.js:436 | removing repeats leaves no element twice and keeps exactly the elements of the input |
| Scanner.DedupPrefix | script.js:436 | what is kept of a prefix stays in front, in order, whatever follows (first-seen order) |
| Scanner.DedupDistinct | script.js:436 | a sequence without repeats is kept whole |
| Scanner.DedupCount | script.js:436 | the number kept is the size of the set of matches |
| Scanner.GroupOf | script.js:478-490 | the report of one pattern: deduplicated matches, the first `limit` listed, the rest counted; `GroupFound` and `GroupListing` state its properties |
| Scanner.GroupListing | script.js:478-490 | a group counts the distinct matches and lists them in first-seen order, none twice, at most the limit; it counts exactly those left out; the overflow line appears iff the limit is exceeded, and then exactly `limit` are listed and `found - limit` counted; without a limit every match is listed |
| Scanner.TotalCountsDistinct | script.js:433-438 | the reported total is the sum over patterns of their distinct match counts |
| Scanner.NothingMatched | script.js:446-450 | the total is zero iff no pattern matched, and then there are no groups |
| Scanner.Scan | script.js:421-455 | too short an output gives the alert; otherwise "nothing found" iff the total is zero, else the groups of the matching patterns in catalogue order and their positive total |
| App.ExtractMapUrl | app.js:9-12 | fails with "No SourceMap found" iff the marker occurs nowhere; the URL has no line terminator and no surrounding white space |
| App.ExtractAppended | app.js:9-12 | for a script with no earlier marker, extracting from `code + marker + pre + url + post + tail`, with white space `pre`/`post` on the marker's line, gives back `url`, whatever follows on later lines; every script with a marker has this shape |
| App.TrimAround | app.js:12 | `trim` cuts exactly the white space around a text that starts and ends with a character it keeps |
| App.FirstMatch | app.js:9 | a match with none before it is the one found |
| App.TakeLineOf | app.js:9 | `(.*)` captures the whole line, up to the next terminator or the end |
| App.ResolveMapUrl | app.js:15-18 | an `http…` URL is used unchanged; any other ends up after a `/` |
| App.ResolveBeside | app.js:15-18 | a relative URL replaces the script's file name: `dir/file` with `m` gives `dir/m` |
| App.ResolveWithoutDirectory | app.js:15-18 | a script URL with no `/` puts only `/` before a relative map URL |
| App.ContentOrNote | app.js:29 | the embedded content when truthy, else "No content"; `PairingContents` states its cases |
| App.PairSources | app.js:27-30 | one entry per source, in order, with the source as file name |
| App.PairingContents | app.js:29 | an entry's content is never empty; it is the embedded content when truthy; it shows "No content" iff the content is missing, null or empty (or is that text) |
| App.PairingRoundTrip | app.js:27-30 | when every source has non-empty content, the entries give back the contents in order |
| App.ErrorMessagesDistinct | app.js:3-33 | the three errors the page raises itself carry three different messages; only the engine's errors have none of their own |
| App.UnmapJs | app.js:1-35 | a failed script download fails first, and "Failed to fetch JS file" arises only from it; "No SourceMap found" iff the script has no marker; the map is requested at the resolved URL; "Failed to fetch .map file" iff that response is not ok; an engine error iff it does not parse, lacks `sources`, or lacks `sourcesContent` for a non-empty `sources`; otherwise the result is the pairing of the map's sources with their contents or the note |
| Strings.TakeLine | app.js:9 | what `(.*)` captures: the longest prefix without a line terminator, ending at a terminator or at the end |
| Strings.Trim | app.js:12 | `trim()`; `App.TrimAround` states that it cuts exactly the white space around a text |
| Strings.JoinSplit | app.js:16 | joining the pieces of a split gives the string back |
| Strings.LastSegmentShape | script.js:176 | the last segment holds no separator; without a separator it is the whole string; otherwise the string is what precedes, the separator, and the last segment |
| Strings.DecimalInjective | script.js:175 | different numbers have different decimal texts |

## Left out

- I/O and scheduling are not modelled: `FileReader`, `fetch`, `res.json()`, the loaders, `processSourceMap`'s progress messages, and the `setTimeout` deferrals (script.js:29-49, 116, 321-396; app.js:3-6, 21-24). In `App.UnmapJs` the script body and the map response are parameters. A script download that rejects or is not ok is `FetchJsFailed`, although a rejection carries the engine's message. A map fetch that rejects, a JSON parse error, and a missing `sources`/`sourcesContent` all become `BadMap`, because their messages come from the engine.
- `JSON.parse`/`JSON.stringify` are not modelled. The map is taken as already parsed, and `JSON.stringify(sm).length` is the input `serializedSize`. Only its comparison with 5,000,000 is modelled.
- Entries of `sources` are strings. Non-string JSON values there are not modelled.
- DOM and HTML construction are reduced to values: a `Block` per rendered file, a `Footer`, a `Group` per scanned pattern, and an `Outcome` per scan. The HTML text, the icons, `toggleFile`/`expandAll`/`collapseAll`, drag and drop, `copyOutput`, the result-div handler of app.js (lines 37-56), and the Blob download mechanics (script.js:240-248) are not modelled.
- `formatSize` (float division and `toFixed`) and the `version` field of the header are not modelled. The version is written into the header unescaped (script.js:61), like the extensions in the Findings.
- Replacing the output area is abstracted. `clearOutput`, a new load, and an error message all replace it, and `Renderer.Session.ReplaceOutput` only records that the files container is gone.
- The regular expressions of the secret and endpoint catalogues are not modelled. `Scanner.Scan` receives one list of matches per pattern; `[]` stands for `null`, since a global match never returns an empty array. The marker search of `unmapJS` is a first-occurrence search plus the rest of the line. That is what the regex does, because `.` stops at line terminators.
- Strings are sequences of Unicode scalar values. JavaScript measures length in UTF-16 code units, which changes `output.length < 50`, the 1000-character sample, and the ratio denominator for text outside the Basic Multilingual Plane.
- Classifier.Extension: `toLowerCase` is modelled for ASCII letters only.
- Unmapper.TallyExtensions: counts on a map, as the page evidently intends; the page's plain object mishandles the keys `__proto__` and `constructor` (see Findings). `Unmapper.Summarize`, `Renderer.Session.UnmapSourceMap` and `Renderer.DisplayableIsCounted` inherit this: for maps with such files their sum properties hold of the corrected tally, not of the page.
- Unmapper.SortByCount: `Object.entries` lists every integer-like key before all other keys, in ascending numeric order, and the rest in insertion order. The model ranks the keys in first-seen order with a stable sort. Two kinds of tie can therefore rank differently:
  - an integer-like key tied with any other key: one code file each of `a.js` and `b.1` ranks `1` before `js` on the page, and `js` first in the model;
  - two tied integer-like keys: `b.2` then `a.1` ranks `1, 2` on the page, and `2, 1` in the model.
- Renderer.Session.DownloadBinary: `window.binaryFiles` is a plain object (script.js:109), and the model's table is a map. Two cases differ:
  - An id that names an inherited member (`constructor`, `toString`, `valueOf`, `__proto__`, ...) finds a truthy value at script.js:237. The page then downloads a Blob of `undefined` named `undefined`; the model says not found.
  - Before any map has validated, `binaryFiles` is still `undefined`, so the lookup throws; the model looks in an empty table and says not found.
  The page's own buttons pass only `binary_<idx>` ids of files already registered (script.js:180), for which the model agrees with the page.
- Renderer.Session.UnmapSourceMap: a failed load still overwrites `sourceMapData` and resets `currentPage` before validating (script.js:53-54), and keeps `binaryFiles`; the model follows the code. `binaryFiles` starts `undefined` and is modelled as an empty table.
- Renderer.Session.RenderPage: the classifier is the session's `detect` field. The constructor sets it to `DetectFileType` and nothing changes it.
- The `filesContainer`/`rendered`/`footer` fields stand for the DOM elements that `renderFilesPage` reads and appends to.

## Findings

| source | as written | input that shows it | evidently intended | confidence | as-written member | corrected member |
|---|---|---|---|---|---|---|
| script.js:80-89 | `extCounts` is a plain object `{}`, so `extCounts['__proto__']` reads the prototype, `+ 1` makes a string, and the `__proto__` setter ignores it | `sources: ["a.__proto__"], sourcesContent: ["x"]`: a code file that is neither counted nor skipped, so the badges sum to 0 while the footer counts 1 file | every non-skipped file counted under its key (a `Map` or `Object.create(null)`) | high (not executed) | Unmapper.ProtoFileUncounted | Unmapper.TallyExtensions |
| script.js:94-163 | the extension, taken from a map's `sources`, is written into the summary badge, the `data-ext` attribute and the `.ext` badge without `escapeHtml` | `sources: ["a.<script>"], sourcesContent: ["x"]`: a code file whose extension `<script>` becomes markup in all three places | the extension escaped like the path | high (not executed) | Renderer.RawExtensionMarkup | Renderer.BlockTextSafe |
| script.js:80-93 | `extCounts['constructor']` starts from the inherited `Object` function, so `+ 1` stores a string, and the ranking comparator `b[1] - a[1]` gives `NaN` for it | `sources: ["a.constructor"], sourcesContent: ["x"]`: the badge shows `.constructor (function Object() { [native code] }1)` | a count of 1 | high (not executed) | Unmapper.ConstructorCountIsText | Unmapper.TallyExtensions |

=== FILE: app.dfy ===
/**
  `unmapJS` of the standalone page: find the `//# sourceMappingURL=` comment
  in a script, resolve the map's URL against the script's, and pair every
  source path of the downloaded map with its embedded content.

  The two downloads are not modelled: the script's body and the response to
  the map request are parameters, the latter a function of the URL asked for.
*/
module App {
  import opened Wrappers
  import opened Strings
  import Unmapper

  /** The text the extraction looks for; the map's URL is the rest of its line. */
  const SourceMapMarker: string := "//# sourceMappingURL="

  /** What a source without truthy content is paired with. */
  const NoContent: string := "No content"

  /** The `error` strings `unmapJS` returns, and the failures whose text comes from the engine. */
  datatype UnmapError =
    | FetchJsFailed      // "Failed to fetch JS file"
    | NoSourceMap        // "No SourceMap found in JS file"
    | FetchMapFailed     // "Failed to fetch .map file"
    | BadMap             // `json()` rejects, or `sources`/`sourcesContent` is missing

  function ErrorMessage(e: UnmapError): Option<string>
  {
    match e
    case FetchJsFailed => Some("Failed to fetch JS file")
    case NoSourceMap => Some("No SourceMap found in JS file")
    case FetchMapFailed => Some("Failed to fetch .map file")
    case BadMap => None
  }

  /** Each error that has a message of its own shows a different text; only the engine's errors have none. */
  lemma ErrorMessagesDistinct(e1: UnmapError, e2: UnmapError)
    ensures ErrorMessage(e1).None? <==> e1 == BadMap
    ensures e1 != e2 && ErrorMessage(e1).Some? ==> ErrorMessage(e1) != ErrorMessage(e2)
  {
  }

  /** The response to the map request: not ok, a body that is not JSON, or the parsed fields. */
  datatype MapResponse =
    | NotOk
    | NotJson
    | MapJson(sources: Option<seq<string>>, sourcesContent: Option<seq<Option<string>>>)

  /** One entry of the result: `{ filename, content }`. */
  datatype SourceFile = SourceFile(filename: string, content: string)

  // ---------------------------------------------------------------------------
  // Finding the map's URL

  /**
    `jsText.match(/\/\/# sourceMappingURL=(.*)/)` and `match[1].trim()`: the
    first occurrence of the marker, the rest of its line, trimmed.
  */
  function ExtractMapUrl(jsText: string): (r: Result<string, UnmapError>)
    ensures r.Failure? <==> forall j :: !MatchAt(jsText, SourceMapMarker, j)
    ensures r.Failure? ==> r.error == NoSourceMap
    ensures r.Success? ==> forall k :: 0 <= k < |r.value| ==> !IsLineTerminator(r.value[k])
    ensures r.Success? && |r.value| > 0 ==> !IsTrimmable(r.value[0]) && !IsTrimmable(r.value[|r.value| - 1])
  {
    match IndexOf(jsText, SourceMapMarker)
    case None => Failure(NoSourceMap)
    case Some(i) =>
      var line := TakeLine(jsText[i + |SourceMapMarker|..]);
      var url := Trim(line);
      TrimWithinLine(line);
      Success(url)
  }

  /** Trimming a line keeps it free of line terminators. */
  lemma TrimWithinLine(line: string)
    requires forall k :: 0 <= k < |line| ==> !IsLineTerminator(line[k])
    ensures forall k :: 0 <= k < |Trim(line)| ==> !IsLineTerminator(Trim(line)[k])
  {
    var s := TrimStart(line);
    forall k | 0 <= k < |s|
      ensures !IsLineTerminator(s[k])
    {
      assert s[k] == line[|line| - |s| + k];
    }
    var t := TrimEnd(s);
    forall k | 0 <= k < |t|
      ensures !IsLineTerminator(t[k])
    {
      assert t[k] == s[k];
    }
  }

  /** A line without line terminators is captured whole, up to the next terminator or the end. */
  lemma {:induction false} TakeLineOf(line: string, tail: string)
    requires forall k :: 0 <= k < |line| ==> !IsLineTerminator(line[k])
    requires tail == [] || IsLineTerminator(tail[0])
    ensures TakeLine(line + tail) == line
    decreases |line|
  {
    if |line| > 0 {
      assert (line + tail)[1..] == line[1..] + tail;
      TakeLineOf(line[1..], tail);
    } else {
      assert line + tail == tail;
    }
  }

  /**
    `trim` cuts exactly the white space around a text that starts and ends
    with a character it keeps.
  */
  lemma TrimAround(pre: string, url: string, post: string)
    requires forall k :: 0 <= k < |pre| ==> IsTrimmable(pre[k])
    requires forall k :: 0 <= k < |post| ==> IsTrimmable(post[k])
    requires |url| > 0 ==> !IsTrimmable(url[0]) && !IsTrimmable(url[|url| - 1])
    ensures Trim(pre + url + post) == url
  {
    if |url| == 0 {
      var s := pre + url + post;
      forall k | 0 <= k < |s|
        ensures IsTrimmable(s[k])
      {
        if k < |pre| {
          assert s[k] == pre[k];
        } else {
          assert s[k] == post[k - |pre|];
        }
      }
      TrimStartAll(s);
    } else {
      assert pre + url + post == pre + (url + post);
      TrimStartSkips(pre, url + post);
      TrimEndSkips(url, post);
    }
  }

  /** Leading white space before a kept character is all that `trimStart` removes. */
  lemma {:induction false} TrimStartSkips(pre: string, rest: string)
    requires forall k :: 0 <= k < |pre| ==> IsTrimmable(pre[k])
    requires |rest| > 0 && !IsTrimmable(rest[0])
    ensures TrimStart(pre + rest) == rest
    decreases |pre|
  {
    if |pre| == 0 {
      assert pre + rest == rest;
    } else {
      assert (pre + rest)[1..] == pre[1..] + rest;
      TrimStartSkips(pre[1..], rest);
    }
  }

  /** Trailing white space after a kept character is all that `trimEnd` removes. */
  lemma {:induction false} TrimEndSkips(rest: string, post: string)
    requires forall k :: 0 <= k < |post| ==> IsTrimmable(post[k])
    requires |rest| > 0 && !IsTrimmable(rest[|rest| - 1])
    ensures TrimEnd(rest + post) == rest
    decreases |post|
  {
    if |post| == 0 {
      assert rest + post == rest;
    } else {
      assert (rest + post)[..|rest + post| - 1] == rest + post[..|post| - 1];
      TrimEndSkips(rest, post[..|post| - 1]);
    }
  }

  /** A text made only of white space trims to nothing. */
  lemma {:induction false} TrimStartAll(s: string)
    requires forall k :: 0 <= k < |s| ==> IsTrimmable(s[k])
    ensures TrimStart(s) == ""
    decreases |s|
  {
    if |s| > 0 {
      TrimStartAll(s[1..]);
    }
  }

  /**
    Appending a source-map comment to a script that has no earlier marker,
    and extracting it again, gives back the URL without the white space
    around it, whatever follows on later lines.
  */
  lemma ExtractAppended(code: string, pre: string, url: string, post: string, tail: string)
    requires forall j :: 0 <= j < |code| ==>
      !MatchAt(code + SourceMapMarker + pre + url + post + tail, SourceMapMarker, j)
    requires forall k :: 0 <= k < |pre| ==> IsTrimmable(pre[k]) && !IsLineTerminator(pre[k])
    requires forall k :: 0 <= k < |post| ==> IsTrimmable(post[k]) && !IsLineTerminator(post[k])
    requires forall k :: 0 <= k < |url| ==> !IsLineTerminator(url[k])
    requires |url| > 0 ==> !IsTrimmable(url[0]) && !IsTrimmable(url[|url| - 1])
    requires tail == [] || IsLineTerminator(tail[0])
    ensures ExtractMapUrl(code + SourceMapMarker + pre + url + post + tail) == Success(url)
  {
    var js := code + SourceMapMarker + pre + url + post + tail;
    var line := pre + url + post;
    var i := |code|;
    assert js == code + SourceMapMarker + (line + tail);
    assert js[i..i + |SourceMapMarker|] == SourceMapMarker;
    FirstMatch(js, SourceMapMarker, i);
    assert js[i + |SourceMapMarker|..] == line + tail;
    forall k | 0 <= k < |line|
      ensures !IsLineTerminator(line[k])
    {
      if k < |pre| {
        assert line[k] == pre[k];
      } else if k < |pre| + |url| {
        assert line[k] == url[k - |pre|];
      } else {
        assert line[k] == post[k - |pre| - |url|];
      }
    }
    TakeLineOf(line, tail);
    TrimAround(pre, url, post);
  }

  /** A match with none before it is the one `indexOf` finds. */
  lemma FirstMatch(s: string, pat: string, i: nat)
    requires MatchAt(s, pat, i)
    requires forall j :: 0 <= j < i ==> !MatchAt(s, pat, j)
    ensures IndexOf(s, pat) == Some(i)
  {
    var r := IndexOf(s, pat);
    assert r.Some?;
    assert !(r.value < i) && !(i < r.value);
  }

  // ---------------------------------------------------------------------------
  // Resolving it

  /**
    A map URL that does not start with `http` is taken relative to the
    script: `jsUrl.split("/").slice(0, -1).join("/") + "/" + mapUrl`.
  */
  function ResolveMapUrl(jsUrl: string, mapUrl: string): (r: string)
    ensures StartsWith(mapUrl, "http") ==> r == mapUrl
    ensures !StartsWith(mapUrl, "http") ==> |r| > |mapUrl| && r[|r| - |mapUrl| - 1..] == "/" + mapUrl
  {
    if StartsWith(mapUrl, "http") then mapUrl
    else BeforeLastSegment(jsUrl, '/') + "/" + mapUrl
  }

  /** A script in a directory finds a relative map beside it: the map's URL replaces the script's file name. */
  lemma ResolveBeside(dir: string, file: string, mapUrl: string)
    requires '/' !in file && !StartsWith(mapUrl, "http")
    ensures ResolveMapUrl(dir + "/" + file, mapUrl) == dir + "/" + mapUrl
  {
    var jsUrl := dir + "/" + file;
    LastSegmentShape(jsUrl, '/');
    LastSegmentAfterLastSeparator(dir, file);
    var before := BeforeLastSegment(jsUrl, '/');
    assert before + "/" + file == dir + "/" + file;
    assert before == (before + "/" + file)[..|before|];
    assert dir == (dir + "/" + file)[..|dir|];
  }

  /** A script URL without any `/` leaves only `"/"` in front of a relative map URL. */
  lemma ResolveWithoutDirectory(jsUrl: string, mapUrl: string)
    requires '/' !in jsUrl && !StartsWith(mapUrl, "http")
    ensures ResolveMapUrl(jsUrl, mapUrl) == "/" + mapUrl
  {
    LastSegmentShape(jsUrl, '/');
  }

  /** The last segment of `dir + "/" + file` is `file` when `file` has no separator. */
  lemma {:induction false} LastSegmentAfterLastSeparator(dir: string, file: string)
    requires '/' !in file
    ensures LastSegment(dir + "/" + file, '/') == file
    decreases |dir|
  {
    if '/' in dir {
      var i := FirstIndex(dir, '/');
      var head, rest := dir[..i], dir[i + 1..];
      assert dir == head + "/" + rest;
      assert dir + "/" + file == head + "/" + (rest + "/" + file);
      LastSegmentAfterHead(head, '/', rest + "/" + file);
      LastSegmentAfterLastSeparator(rest, file);
    } else {
      LastSegmentAfterHead(dir, '/', file);
      LastSegmentWithoutSeparator(file, '/');
    }
  }

  /** The position of the first occurrence of `c` in `s`. */
  function FirstIndex(s: string, c: char): (i: nat)
    requires c in s
    ensures i < |s| && s[i] == c && c !in s[..i]
  {
    if s[0] == c then 0 else 1 + FirstIndex(s[1..], c)
  }

  // ---------------------------------------------------------------------------
  // Pairing sources with contents

  /** `sourcesContent[i] || "No content"`. */
  function ContentOrNote(contents: seq<Option<string>>, i: nat): string
  {
    var c := Unmapper.ContentAt(contents, i);
    if Truthy(c) then c.value else NoContent
  }

  /** `sources.map((file, i) => ({ filename: file, content: sourcesContent[i] || "No content" }))`. */
  function PairSources(sources: seq<string>, contents: seq<Option<string>>): (r: seq<SourceFile>)
    ensures |r| == |sources|
    ensures forall i :: 0 <= i < |r| ==> r[i].filename == sources[i]
  {
    seq(|sources|, i requires 0 <= i < |sources| => SourceFile(sources[i], ContentOrNote(contents, i)))
  }

  /**
    Every entry carries text: the embedded content when it is there and not
    empty, and the note otherwise, so an entry shows the note exactly when
    its content is missing, null, empty, or the note itself.
  */
  lemma PairingContents(sources: seq<string>, contents: seq<Option<string>>, i: nat)
    requires i < |sources|
    ensures PairSources(sources, contents)[i].content != ""
    ensures Truthy(Unmapper.ContentAt(contents, i)) ==>
      PairSources(sources, contents)[i].content == contents[i].value
    ensures PairSources(sources, contents)[i].content == NoContent <==>
      !Truthy(Unmapper.ContentAt(contents, i)) || contents[i].value == NoContent
  {
  }

  /** When every source has non-empty content, pairing loses nothing: the contents come back in order. */
  lemma PairingRoundTrip(sources: seq<string>, contents: seq<string>)
    requires |contents| == |sources|
    requires forall i :: 0 <= i < |contents| ==> contents[i] != ""
    ensures
      var r := PairSources(sources, seq(|contents|, i requires 0 <= i < |contents| => Some(contents[i])));
      forall i :: 0 <= i < |r| ==> r[i] == SourceFile(sources[i], contents[i])
  {
  }

  // ---------------------------------------------------------------------------
  // The whole

  /**
    `unmapJS`: each step either fails with its own error or hands over to
    the next; the map is requested at the resolved URL, a response that is
    not ok fails with its own error, one that does not parse or lacks the
    fields read fails in the engine, and otherwise the result pairs every
    source with its content or the note.
  */
  function UnmapJs(jsUrl: string, jsText: Option<string>, fetchMap: string -> MapResponse)
    : (r: Result<seq<SourceFile>, UnmapError>)
    ensures r == Failure(FetchJsFailed) <==> jsText.None?
    ensures r == Failure(NoSourceMap) <==> jsText.Some? && ExtractMapUrl(jsText.value).Failure?
    ensures r.Success? ==>
      && jsText.Some? && ExtractMapUrl(jsText.value).Success?
      && var response := fetchMap(ResolveMapUrl(jsUrl, ExtractMapUrl(jsText.value).value));
      && response.MapJson? && response.sources.Some?
      && |r.value| == |response.sources.value|
      && forall i :: 0 <= i < |r.value| ==> r.value[i].filename == response.sources.value[i]
    ensures jsText.Some? && ExtractMapUrl(jsText.value).Success? ==>
      var response := fetchMap(ResolveMapUrl(jsUrl, ExtractMapUrl(jsText.value).value));
      && (r == Failure(FetchMapFailed) <==> response.NotOk?)
      && (r == Failure(BadMap) <==>
            || response.NotJson?
            || (response.MapJson? && response.sources.None?)
            || (response.MapJson? && response.sources.Some? && response.sourcesContent.None?
                && |response.sources.value| > 0))
      && (r.Success? ==>
            r.value == PairSources(response.sources.value,
                                   if response.sourcesContent.Some? then response.sourcesContent.value else []))
  {
    match jsText
    case None => Failure(FetchJsFailed)
    case Some(text) =>
      match ExtractMapUrl(text)
      case Failure(e) => Failure(e)
      case Success(mapUrl) =>
        match fetchMap(ResolveMapUrl(jsUrl, mapUrl))
        case NotOk => Failure(FetchMapFailed)
        case NotJson => Failure(BadMap)
        case MapJson(sources, sourcesContent) =>
          if sources.None? then Failure(BadMap)
          else if sourcesContent.None? && |sources.value| > 0 then Failure(BadMap)
          else Success(PairSources(sources.value, if sourcesContent.Some? then sourcesContent.value else []))
  }
}

=== FILE: classifier.dfy ===
/**
  The file classifier of the unmapper: given a source path and its embedded
  content (a string, `null`, or `undefined` when `sourcesContent` is shorter
  than `sources`), decide whether the file is skipped (fonts, images, embedded
  image/font data URLs), binary, empty, or code. The decision is a cascade in
  which the path's extension is examined before anything about the content.
*/
module Classifier {
  import opened Wrappers
  import opened Strings

  datatype Kind = Skip | Binary | Empty | Code

  /** The `{ type, label }` record the classifier returns (`label` is a Dafny keyword, hence `text`). */
  datatype FileType = FileType(kind: Kind, text: string)

  const FontExts: seq<string> := ["woff", "woff2", "ttf", "eot", "otf"]
  const ImageExts: seq<string> := ["png", "jpg", "jpeg", "gif", "ico", "webp", "bmp"]
  const BinaryExts: seq<string> := ["wasm", "so", "dll", "exe", "bin", "dat", "db"]

  /** At most this many leading characters of the content are inspected. */
  const SampleLimit: nat := 1000

  const FontLabel := "FONT (SKIPPED)"
  const ImageLabel := "IMAGE (SKIPPED)"
  const BinaryLabel := "\U{1F4E6} BINARY"
  const NoExtensionLabel := "\U{1F4E6} NO EXTENSION"
  const EmptyLabel := "EMPTY"
  const AssetLabel := "BASE64 ASSET (SKIPPED)"
  const DataLabel := "\U{1F4E6} BASE64 DATA"
  const BinaryDataLabel := "\U{1F4E6} BINARY DATA"
  const CodeLabel := "CODE"

  /** `filename.split('.').pop().toLowerCase()`: the lowered text after the last dot, or the whole lowered name. */
  function Extension(filename: string): string
  {
    ToLower(LastSegment(filename, '.'))
  }

  /** A character with code below 32 other than tab, line feed and carriage return. */
  predicate IsNonPrintable(c: char)
  {
    (c as int) < 32 && c != '\t' && c != '\n' && c != '\r'
  }

  /** How many characters of `s` are non-printable. */
  function NonPrintableCount(s: string): (n: nat)
    ensures n <= |s|
  {
    if |s| == 0 then 0
    else NonPrintableCount(s[..|s| - 1]) + (if IsNonPrintable(s[|s| - 1]) then 1 else 0)
  }

  /** `Math.min(content.length, 1000)`. */
  function SampleSize(content: string): nat
  {
    if |content| < SampleLimit then |content| else SampleLimit
  }

  /**
    More than a tenth of the sampled characters are non-printable. The source
    compares the quotient `count / sample` with the double `0.1`; for samples of
    at most 1000 characters a quotient above one tenth exceeds it by at least
    1/10000, far more than the rounding error, and a quotient of exactly one
    tenth rounds to the double `0.1`, so the integer comparison is exact.
  */
  predicate LooksBinary(content: string)
  {
    10 * NonPrintableCount(content[..SampleSize(content)]) > SampleSize(content)
  }

  /** Embedded data URLs of images and fonts are assets to skip. */
  predicate IsAssetDataUrl(content: string)
  {
    StartsWith(content, "data:image") || StartsWith(content, "data:font")
    || StartsWith(content, "data:application/font")
  }

  /** `detectFileType(filename, content)`. */
  function DetectFileType(filename: string, content: Option<string>): FileType
  {
    var ext := Extension(filename);
    if ext in FontExts then FileType(Skip, FontLabel)
    else if ext in ImageExts then FileType(Skip, ImageLabel)
    else if ext in BinaryExts then FileType(Binary, BinaryLabel)
    else if filename == ext || '.' !in filename then FileType(Binary, NoExtensionLabel)
    else if !Truthy(content) then FileType(Empty, EmptyLabel)
    else if StartsWith(content.value, "data:") then
      if IsAssetDataUrl(content.value) then FileType(Skip, AssetLabel)
      else FileType(Binary, DataLabel)
    else if LooksBinary(content.value) then FileType(Binary, BinaryDataLabel)
    else FileType(Code, CodeLabel)
  }

  /**
    The counting loop of the classifier: the number of non-printable
    characters among the first `Math.min(content.length, 1000)`.
  */
  method CountNonPrintable(content: string) returns (nonPrintable: nat)
    ensures nonPrintable == NonPrintableCount(content[..SampleSize(content)])
    ensures nonPrintable <= SampleLimit
  {
    var sampleSize := SampleSize(content);
    nonPrintable := 0;
    var i := 0;
    while i < sampleSize
      invariant 0 <= i <= sampleSize
      invariant nonPrintable == NonPrintableCount(content[..i])
    {
      assert content[..i + 1][..i] == content[..i];
      if IsNonPrintable(content[i]) {
        nonPrintable := nonPrintable + 1;
      }
      i := i + 1;
    }
  }

  /** Text made only of printable characters has no non-printable count. */
  lemma {:induction false} NoNonPrintable(s: string)
    requires forall i :: 0 <= i < |s| ==> !IsNonPrintable(s[i])
    ensures NonPrintableCount(s) == 0
  {
    if |s| > 0 {
      NoNonPrintable(s[..|s| - 1]);
    }
  }

  // ---------------------------------------------------------------------------
  // Properties of the cascade

  /** A name is equal to its own extension only when it has no dot, so the first half of the no-extension test adds nothing. */
  lemma NameEqualsExtensionOnlyWithoutDot(filename: string)
    ensures (filename == Extension(filename) || '.' !in filename) <==> '.' !in filename
  {
    LastSegmentShape(filename, '.');
  }

  /**
    The extension is what follows the last dot anywhere in the path, lowered,
    even when a `/` comes after that dot; a path without a dot is its own
    extension.
  */
  lemma ExtensionAfterLastDot(filename: string)
    ensures '.' !in Extension(filename)
    ensures '.' !in filename ==> Extension(filename) == ToLower(filename)
    ensures '.' in filename ==> exists before :: filename == before + "." + LastSegment(filename, '.')
  {
    LastSegmentShape(filename, '.');
    if '.' in filename {
      var before := BeforeLastSegment(filename, '.');
      assert filename == before + "." + LastSegment(filename, '.');
    }
  }

  /**
    The extension lists are consulted before any content test: a listed
    extension decides the result whatever the content is, and `x.PNG` with
    binary-looking content is skipped, never binary.
  */
  lemma ExtensionDecidesFirst(filename: string, content: Option<string>)
    ensures Extension(filename) in FontExts ==> DetectFileType(filename, content) == FileType(Skip, FontLabel)
    ensures Extension(filename) in ImageExts ==> DetectFileType(filename, content) == FileType(Skip, ImageLabel)
    ensures Extension(filename) in BinaryExts ==> DetectFileType(filename, content) == FileType(Binary, BinaryLabel)
  {
  }

  /**
    A path with no dot is binary "NO EXTENSION" whatever its content, unless its
    whole lowered name is itself a listed extension (`WOFF` is skipped, `bin` is
    plain binary).
  */
  lemma NoDotRule(filename: string, content: Option<string>)
    requires '.' !in filename
    ensures DetectFileType(filename, content) ==
      var name := ToLower(filename);
      if name in FontExts then FileType(Skip, FontLabel)
      else if name in ImageExts then FileType(Skip, ImageLabel)
      else if name in BinaryExts then FileType(Binary, BinaryLabel)
      else FileType(Binary, NoExtensionLabel)
  {
    ExtensionAfterLastDot(filename);
  }

  /** An extension that none of the three lists names. */
  predicate Unlisted(ext: string)
  {
    ext !in FontExts && ext !in ImageExts && ext !in BinaryExts
  }

  /** Every listed extension has at most five characters. */
  lemma LongUnlisted(ext: string)
    requires |ext| > 5
    ensures Unlisted(ext)
  {
  }

  /**
    For a path with a dot and an unlisted extension the content decides:
    falsy content is empty; a `data:` URL is skipped when it embeds an image
    or font and binary otherwise; other content is binary exactly when more
    than a tenth of its sample is non-printable, and code in every other case.
  */
  lemma ContentRules(filename: string, content: Option<string>)
    requires '.' in filename && Unlisted(Extension(filename))
    ensures DetectFileType(filename, content).kind == Empty <==> !Truthy(content)
    ensures DetectFileType(filename, content).kind == Skip <==>
      Truthy(content) && IsAssetDataUrl(content.value)
    ensures DetectFileType(filename, content).kind == Binary <==>
      Truthy(content) && !IsAssetDataUrl(content.value)
      && (StartsWith(content.value, "data:") || LooksBinary(content.value))
    ensures DetectFileType(filename, content).kind == Code <==>
      Truthy(content) && !StartsWith(content.value, "data:") && !LooksBinary(content.value)
  {
    NameEqualsExtensionOnlyWithoutDot(filename);
    if Truthy(content) && IsAssetDataUrl(content.value) {
      var c := content.value;
      assert c[..5] == "data:" by {
        if StartsWith(c, "data:image") {
          assert c[..5] == c[..10][..5];
        } else if StartsWith(c, "data:font") {
          assert c[..5] == c[..9][..5];
        } else {
          assert c[..5] == c[..21][..5];
        }
      }
    }
  }

  /** Content that is `null`, `undefined` or `""` is never code. */
  lemma FalsyContentNeverCode(filename: string, content: Option<string>)
    requires !Truthy(content)
    ensures DetectFileType(filename, content).kind != Code
  {
  }

  /** The three lists are disjoint, so the order of the first three tests only chooses the label. */
  lemma ListsDisjoint()
    ensures forall e :: e in FontExts ==> e !in ImageExts && e !in BinaryExts
    ensures forall e :: e in ImageExts ==> e !in BinaryExts
  {
  }

  /** `x.PNG` with binary-looking content is an image to skip. */
  lemma ExampleUpperCaseImage()
    ensures DetectFileType("x.PNG", Some([0 as char, 1 as char, 2 as char])) == FileType(Skip, ImageLabel)
  {
    LastSegmentAfterHead("x", '.', "PNG");
    LastSegmentWithoutSeparator("PNG", '.');
    assert "x" + ['.'] + "PNG" == "x.PNG";
    assert ToLower("PNG") == "png";
  }

  /** A dotless name that is a listed extension is classified by it: `WOFF` is a font. */
  lemma ExampleDotlessFont()
    ensures DetectFileType("WOFF", None) == FileType(Skip, FontLabel)
  {
    NoDotRule("WOFF", None);
    assert ToLower("WOFF") == "woff";
  }

  /** `bin` without a dot is plain binary, not "no extension". */
  lemma ExampleDotlessBinary()
    ensures DetectFileType("bin", Some("text")) == FileType(Binary, BinaryLabel)
  {
    NoDotRule("bin", Some("text"));
    assert ToLower("bin") == "bin";
  }

  /** A dotless name that is not a listed extension is binary whatever its content. */
  lemma ExampleNoExtension()
    ensures DetectFileType("LICENSE", Some("MIT License")) == FileType(Binary, NoExtensionLabel)
  {
    NoDotRule("LICENSE", Some("MIT License"));
    LongUnlisted(ToLower("LICENSE"));
  }

  /** A dot in a directory name makes the rest of the path the extension. */
  lemma ExampleDotInDirectory()
    ensures Extension("a.b/c") == "b/c"
    ensures DetectFileType("a.b/c", None) == FileType(Empty, EmptyLabel)
  {
    LastSegmentAfterHead("a", '.', "b/c");
    LastSegmentWithoutSeparator("b/c", '.');
    assert "a" + ['.'] + "b/c" == "a.b/c";
    assert ToLower("b/c") == "b/c";
    assert Unlisted("b/c");
    assert "a.b/c"[1] == '.';
  }

  /** `a.js` has a dot and the unlisted extension `js`. */
  lemma ScriptName()
    ensures '.' in "a.js" && Extension("a.js") == "js" && Unlisted(Extension("a.js"))
  {
    LastSegmentAfterHead("a", '.', "js");
    LastSegmentWithoutSeparator("js", '.');
    assert "a" + ['.'] + "js" == "a.js";
    assert ToLower("js") == "js";
    assert Unlisted("js");
  }

  /** `a.js` with `""` content is empty. */
  lemma ExampleEmptyScript()
    ensures DetectFileType("a.js", Some("")) == FileType(Empty, EmptyLabel)
  {
    ScriptName();
    NameEqualsExtensionOnlyWithoutDot("a.js");
  }

  /** `a.js` holding `console.log(1)` is code. */
  lemma ExampleScript()
    ensures DetectFileType("a.js", Some("console.log(1)")) == FileType(Code, CodeLabel)
  {
    ScriptName();
    NameEqualsExtensionOnlyWithoutDot("a.js");
    var code := "console.log(1)";
    NoNonPrintable(code);
    assert code[..SampleSize(code)] == code;
    assert !LooksBinary(code);
    assert code[..5][0] == 'c';
    assert !StartsWith(code, "data:");
  }
}

=== FILE: escape.dfy ===
/**
  `escapeHtml`: five global replacements applied one after another, `&`
  first. The model keeps the five passes as written and proves that together
  they escape each character independently, that the output carries no raw
  markup character, that every `&` in it starts an entity, and that
  decoding the entities gives back the input.
*/
module Escape {
  import opened Wrappers
  import opened Strings

  /** `s.replace(/c/g, with)` for a one-character pattern. */
  function ReplaceAll(s: string, c: char, with: string): (r: string)
    decreases |s|
  {
    if |s| == 0 then ""
    else (if s[0] == c then with else [s[0]]) + ReplaceAll(s[1..], c, with)
  }

  /** The five passes of `escapeHtml`, in the order the source applies them. */
  function ReplacePasses(s: string): string
  {
    var amp := ReplaceAll(s, '&', "&amp;");
    var lt := ReplaceAll(amp, '<', "&lt;");
    var gt := ReplaceAll(lt, '>', "&gt;");
    var quot := ReplaceAll(gt, '"', "&quot;");
    ReplaceAll(quot, '\'', "&#039;")
  }

  /** `escapeHtml(text)`: falsy input gives `''`. */
  function EscapeHtml(text: Option<string>): string
  {
    if !Truthy(text) then "" else ReplacePasses(text.value)
  }

  // ---------------------------------------------------------------------------
  // A per-character reference definition

  /** The entity a single character becomes. */
  function EscapeChar(c: char): string
  {
    if c == '&' then "&amp;"
    else if c == '<' then "&lt;"
    else if c == '>' then "&gt;"
    else if c == '"' then "&quot;"
    else if c == '\'' then "&#039;"
    else [c]
  }

  /** Each character replaced by its entity, independently of its neighbours. */
  function EscapeEach(s: string): string
    decreases |s|
  {
    if |s| == 0 then "" else EscapeChar(s[0]) + EscapeEach(s[1..])
  }

  lemma {:induction false} ReplaceAllConcat(a: string, b: string, c: char, with: string)
    ensures ReplaceAll(a + b, c, with) == ReplaceAll(a, c, with) + ReplaceAll(b, c, with)
    decreases |a|
  {
    if |a| > 0 {
      assert (a + b)[1..] == a[1..] + b;
      ReplaceAllConcat(a[1..], b, c, with);
    } else {
      assert a + b == b;
    }
  }

  lemma {:induction false} ReplaceAllAbsent(s: string, c: char, with: string)
    requires c !in s
    ensures ReplaceAll(s, c, with) == s
    decreases |s|
  {
    if |s| > 0 {
      ReplaceAllAbsent(s[1..], c, with);
    }
  }

  lemma ReplaceAllOne(x: char, c: char, with: string)
    ensures ReplaceAll([x], c, with) == if x == c then with else [x]
  {
    assert [x][1..] == "";
  }

  /** The last four passes leave text without their characters alone. */
  lemma LaterPassesIdentity(s: string, from: nat)
    requires 1 <= from <= 4
    requires from <= 1 ==> '<' !in s
    requires from <= 2 ==> '>' !in s
    requires from <= 3 ==> '"' !in s
    requires '\'' !in s
    ensures from <= 1 ==> ReplaceAll(ReplaceAll(ReplaceAll(ReplaceAll(s, '<', "&lt;"), '>', "&gt;"), '"', "&quot;"), '\'', "&#039;") == s
    ensures from == 2 ==> ReplaceAll(ReplaceAll(ReplaceAll(s, '>', "&gt;"), '"', "&quot;"), '\'', "&#039;") == s
    ensures from == 3 ==> ReplaceAll(ReplaceAll(s, '"', "&quot;"), '\'', "&#039;") == s
    ensures from == 4 ==> ReplaceAll(s, '\'', "&#039;") == s
  {
    if from <= 1 { ReplaceAllAbsent(s, '<', "&lt;"); }
    if from <= 2 { ReplaceAllAbsent(s, '>', "&gt;"); }
    if from <= 3 { ReplaceAllAbsent(s, '"', "&quot;"); }
    ReplaceAllAbsent(s, '\'', "&#039;");
  }

  lemma PassesOnOneChar(x: char)
    ensures ReplacePasses([x]) == EscapeChar(x)
  {
    ReplaceAllOne(x, '&', "&amp;");
    if x == '&' {
      assert ReplaceAll([x], '&', "&amp;") == "&amp;";
      LaterPassesIdentity("&amp;", 1);
    } else {
      assert ReplaceAll([x], '&', "&amp;") == [x];
      ReplaceAllOne(x, '<', "&lt;");
      if x == '<' {
        LaterPassesIdentity("&lt;", 2);
      } else {
        ReplaceAllOne(x, '>', "&gt;");
        if x == '>' {
          LaterPassesIdentity("&gt;", 3);
        } else {
          ReplaceAllOne(x, '"', "&quot;");
          if x == '"' {
            LaterPassesIdentity("&quot;", 4);
          } else {
            ReplaceAllOne(x, '\'', "&#039;");
          }
        }
      }
    }
  }

  lemma PassesConcat(a: string, b: string)
    ensures ReplacePasses(a + b) == ReplacePasses(a) + ReplacePasses(b)
  {
    ReplaceAllConcat(a, b, '&', "&amp;");
    var a1, b1 := ReplaceAll(a, '&', "&amp;"), ReplaceAll(b, '&', "&amp;");
    ReplaceAllConcat(a1, b1, '<', "&lt;");
    var a2, b2 := ReplaceAll(a1, '<', "&lt;"), ReplaceAll(b1, '<', "&lt;");
    ReplaceAllConcat(a2, b2, '>', "&gt;");
    var a3, b3 := ReplaceAll(a2, '>', "&gt;"), ReplaceAll(b2, '>', "&gt;");
    ReplaceAllConcat(a3, b3, '"', "&quot;");
    var a4, b4 := ReplaceAll(a3, '"', "&quot;"), ReplaceAll(b3, '"', "&quot;");
    ReplaceAllConcat(a4, b4, '\'', "&#039;");
  }

  /**
    Because `&` is replaced first, no later pass touches an entity an earlier
    pass produced: the five passes escape every character on its own.
  */
  lemma {:induction false} PassesEscapeEachChar(s: string)
    ensures ReplacePasses(s) == EscapeEach(s)
    decreases |s|
  {
    if |s| > 0 {
      assert s == [s[0]] + s[1..];
      PassesConcat([s[0]], s[1..]);
      PassesOnOneChar(s[0]);
      PassesEscapeEachChar(s[1..]);
    }
  }

  /** `escapeHtml` in terms of the reference: `''` for absent input, else each character escaped. */
  lemma EscapeHtmlIsPerChar(text: Option<string>)
    ensures EscapeHtml(text) == if text.None? then "" else EscapeEach(text.value)
  {
    if text.Some? {
      PassesEscapeEachChar(text.value);
    }
  }

  // ---------------------------------------------------------------------------
  // What the output looks like

  /** No raw `<`, `>`, `"` or `'`. */
  predicate NoMarkup(r: string)
  {
    forall i :: 0 <= i < |r| ==> r[i] != '<' && r[i] != '>' && r[i] != '"' && r[i] != '\''
  }

  /** One of the five entities starts at position `i`. */
  predicate EntityAt(r: string, i: nat)
    requires i <= |r|
  {
    var rest := r[i..];
    StartsWith(rest, "&amp;") || StartsWith(rest, "&lt;") || StartsWith(rest, "&gt;")
    || StartsWith(rest, "&quot;") || StartsWith(rest, "&#039;")
  }

  /** Every `&` begins an entity. */
  predicate AmpersandsStartEntities(r: string)
  {
    forall i :: 0 <= i < |r| && r[i] == '&' ==> EntityAt(r, i)
  }

  lemma EntityAtShift(a: string, b: string, j: nat)
    requires j <= |b| && EntityAt(b, j)
    ensures EntityAt(a + b, |a| + j)
  {
    assert (a + b)[|a| + j..] == b[j..];
  }

  lemma {:induction false} EscapeEachNoMarkup(s: string)
    ensures NoMarkup(EscapeEach(s))
    decreases |s|
  {
    if |s| > 0 {
      EscapeEachNoMarkup(s[1..]);
      var head, tail := EscapeChar(s[0]), EscapeEach(s[1..]);
      assert EscapeEach(s) == head + tail;
      assert NoMarkup(head);
    }
  }

  lemma {:induction false} EscapeEachEntities(s: string)
    ensures AmpersandsStartEntities(EscapeEach(s))
    decreases |s|
  {
    if |s| > 0 {
      EscapeEachEntities(s[1..]);
      var head, tail := EscapeChar(s[0]), EscapeEach(s[1..]);
      var r := head + tail;
      assert r == EscapeEach(s);
      forall i | 0 <= i < |r| && r[i] == '&'
        ensures EntityAt(r, i)
      {
        if i < |head| {
          assert i == 0;
          assert r[..|head|] == head;
        } else {
          assert tail[i - |head|] == '&';
          EntityAtShift(head, tail, i - |head|);
        }
      }
    }
  }

  /** The output of `escapeHtml` contains no markup character, and every `&` in it starts an entity. */
  lemma EscapeHtmlSafe(text: Option<string>)
    ensures NoMarkup(EscapeHtml(text))
    ensures AmpersandsStartEntities(EscapeHtml(text))
  {
    EscapeHtmlIsPerChar(text);
    if text.Some? {
      EscapeEachNoMarkup(text.value);
      EscapeEachEntities(text.value);
    }
  }

  // ---------------------------------------------------------------------------
  // Decoding

  /** Replaces each of the five entities by its character, left to right. */
  function UnescapeHtml(s: string): string
    decreases |s|
  {
    if |s| == 0 then ""
    else if StartsWith(s, "&amp;") then "&" + UnescapeHtml(s[5..])
    else if StartsWith(s, "&lt;") then "<" + UnescapeHtml(s[4..])
    else if StartsWith(s, "&gt;") then ">" + UnescapeHtml(s[4..])
    else if StartsWith(s, "&quot;") then "\"" + UnescapeHtml(s[6..])
    else if StartsWith(s, "&#039;") then "'" + UnescapeHtml(s[6..])
    else [s[0]] + UnescapeHtml(s[1..])
  }

  lemma NoEntityWithoutAmpersand(s: string)
    requires |s| > 0 && s[0] != '&'
    ensures !StartsWith(s, "&amp;") && !StartsWith(s, "&lt;") && !StartsWith(s, "&gt;")
    ensures !StartsWith(s, "&quot;") && !StartsWith(s, "&#039;")
  {
  }

  /** An entity at the front decodes to its character; decoding goes on after it. */
  lemma UnescapeAmpFront(t: string)
    ensures UnescapeHtml("&amp;" + t) == "&" + UnescapeHtml(t)
  {
    assert ("&amp;" + t)[..5] == "&amp;";
    assert ("&amp;" + t)[5..] == t;
  }

  lemma UnescapeLtFront(t: string)
    ensures UnescapeHtml("&lt;" + t) == "<" + UnescapeHtml(t)
  {
    var s := "&lt;" + t;
    assert s[..4] == "&lt;" && s[1] == 'l';
    assert s[4..] == t;
  }

  lemma UnescapeGtFront(t: string)
    ensures UnescapeHtml("&gt;" + t) == ">" + UnescapeHtml(t)
  {
    var s := "&gt;" + t;
    assert s[..4] == "&gt;" && s[1] == 'g';
    assert s[4..] == t;
  }

  lemma UnescapeQuotFront(t: string)
    ensures UnescapeHtml("&quot;" + t) == "\"" + UnescapeHtml(t)
  {
    var s := "&quot;" + t;
    assert s[..6] == "&quot;" && s[1] == 'q';
    assert s[6..] == t;
  }

  lemma UnescapeAposFront(t: string)
    ensures UnescapeHtml("&#039;" + t) == "'" + UnescapeHtml(t)
  {
    var s := "&#039;" + t;
    assert s[..6] == "&#039;" && s[1] == '#';
    assert s[6..] == t;
  }

  /** Any other character decodes to itself. */
  lemma UnescapePlainFront(c: char, t: string)
    requires c != '&'
    ensures UnescapeHtml([c] + t) == [c] + UnescapeHtml(t)
  {
    var s := [c] + t;
    NoEntityWithoutAmpersand(s);
    assert s[1..] == t;
  }

  lemma UnescapeAfterChar(c: char, t: string)
    ensures UnescapeHtml(EscapeChar(c) + t) == [c] + UnescapeHtml(t)
  {
    if c == '&' {
      UnescapeAmpFront(t);
    } else if c == '<' {
      UnescapeLtFront(t);
    } else if c == '>' {
      UnescapeGtFront(t);
    } else if c == '"' {
      UnescapeQuotFront(t);
    } else if c == '\'' {
      UnescapeAposFront(t);
    } else {
      UnescapePlainFront(c, t);
    }
  }

  lemma {:induction false} UnescapeEscapeEach(s: string)
    ensures UnescapeHtml(EscapeEach(s)) == s
    decreases |s|
  {
    if |s| > 0 {
      UnescapeAfterChar(s[0], EscapeEach(s[1..]));
      UnescapeEscapeEach(s[1..]);
    }
  }

  /** Decoding the entities of `escapeHtml`'s output recovers the input (absent input reads as `""`). */
  lemma EscapeRoundTrip(text: Option<string>)
    ensures UnescapeHtml(EscapeHtml(text)) == if text.None? then "" else text.value
  {
    EscapeHtmlIsPerChar(text);
    if text.Some? {
      UnescapeEscapeEach(text.value);
    }
  }
}

=== FILE: renderer.dfy ===
/**
  `renderFilesPage` and `downloadBinary`: a session that shows the
  displayable (non-skipped) files of the current source map fifty at a time,
  registers the binary files it shows in a side table, and hands a
  registered file back by its key.

  The paging loop is proved against `Displayable`, the filter of the
  non-skipped indices; the session's invariant says that what has been
  rendered, and what has been registered, is exactly what the pages so far
  select from that filter.
*/
module Renderer {
  import opened Wrappers
  import opened Strings
  import opened Seqs
  import opened Classifier
  import opened Escape
  import opened Unmapper

  /** `FILES_PER_PAGE`. */
  const FilesPerPage: nat := 50

  /**
    The files of a usable map as the renderer sees them: the classifier, the
    paths, the contents, and whether the map is large.
  */
  datatype Listing = Listing(detect: Detector, sources: seq<string>, contents: seq<Option<string>>, large: bool)

  function ListingOf(detect: Detector, sm: SourceMap): Listing
    requires sm.sources.Some? && sm.sourcesContent.Some?
  {
    Listing(detect, sm.sources.value, sm.sourcesContent.value, IsLarge(sm))
  }

  predicate Skipped(l: Listing, i: nat)
    requires i < |l.sources|
  {
    SkippedAt(l.detect, l.sources, l.contents, i)
  }

  // ---------------------------------------------------------------------------
  // The displayable files

  /** The indices below `k` whose files are not skipped, in ascending order. */
  function DisplayableBefore(l: Listing, k: nat): (d: seq<nat>)
    requires k <= |l.sources|
    ensures forall j :: 0 <= j < |d| ==> d[j] < k
  {
    if k == 0 then []
    else if Skipped(l, k - 1) then DisplayableBefore(l, k - 1)
    else DisplayableBefore(l, k - 1) + [k - 1]
  }

  /** `sm.sources.filter(...)`: the indices of all files that are not skipped. */
  function Displayable(l: Listing): seq<nat>
  {
    DisplayableBefore(l, |l.sources|)
  }

  predicate StrictlyIncreasing(s: seq<nat>)
  {
    forall a, b :: 0 <= a < b < |s| ==> s[a] < s[b]
  }

  /** The filter holds exactly the indices of the files that are not skipped. */
  lemma {:induction false} DisplayableMembers(l: Listing, k: nat)
    requires k <= |l.sources|
    ensures forall i: nat :: i in DisplayableBefore(l, k) <==> i < k && !Skipped(l, i)
  {
    if k > 0 {
      DisplayableMembers(l, k - 1);
    }
  }

  /** The filter lists its indices in ascending order, so none twice. */
  lemma {:induction false} DisplayableIncreasing(l: Listing, k: nat)
    requires k <= |l.sources|
    ensures StrictlyIncreasing(DisplayableBefore(l, k))
    ensures Distinct(DisplayableBefore(l, k))
  {
    if k > 0 {
      DisplayableIncreasing(l, k - 1);
    }
  }

  /** The files below `k` are either displayable or skipped. */
  lemma {:induction false} DisplayableCount(l: Listing, k: nat)
    requires k <= |l.sources|
    ensures |DisplayableBefore(l, k)| + SkipCount(l.detect, l.sources, l.contents, k) == k
  {
    if k > 0 {
      DisplayableCount(l, k - 1);
    }
  }

  /** The filter up to `k` is a prefix of the filter up to any later `m`. */
  lemma {:induction false} DisplayablePrefix(l: Listing, k: nat, m: nat)
    requires k <= m <= |l.sources|
    ensures |DisplayableBefore(l, k)| <= |DisplayableBefore(l, m)|
    ensures DisplayableBefore(l, k) == DisplayableBefore(l, m)[..|DisplayableBefore(l, k)|]
    decreases m
  {
    if k < m {
      DisplayablePrefix(l, k, m - 1);
    }
  }

  /**
    The number of displayable files, the figure of the "All N files loaded"
    footer, is the sum of the per-extension counts of the summary.
  */
  lemma DisplayableIsCounted(l: Listing, s: Summary)
    requires IsSummaryOf(l.detect, l.sources, l.contents, s)
    ensures |Displayable(l)| == Total(s.ranking)
  {
    DisplayableCount(l, |l.sources|);
  }

  // ---------------------------------------------------------------------------
  // Pages

  function Min(a: nat, b: nat): nat
  {
    if a <= b then a else b
  }

  /** The files that page `page` shows: positions `page*50` up to `page*50 + 50` of the filter. */
  function PageSlice(d: seq<nat>, page: nat): seq<nat>
  {
    d[Min(page * FilesPerPage, |d|)..Min(page * FilesPerPage + FilesPerPage, |d|)]
  }

  /** The files shown once `pages` pages have been rendered. */
  function Shown(d: seq<nat>, pages: nat): seq<nat>
  {
    d[..Min(pages * FilesPerPage, |d|)]
  }

  /** Rendering one more page appends that page's files to those shown. */
  lemma ShownStep(d: seq<nat>, pages: nat)
    ensures Shown(d, pages + 1) == Shown(d, pages) + PageSlice(d, pages)
  {
    var a, b := Min(pages * FilesPerPage, |d|), Min(pages * FilesPerPage + FilesPerPage, |d|);
    assert d[..b] == d[..a] + d[a..b];
  }

  /** The pages `0 .. pages-1` one after the other. */
  function Pages(d: seq<nat>, pages: nat): seq<nat>
  {
    if pages == 0 then [] else Pages(d, pages - 1) + PageSlice(d, pages - 1)
  }

  /**
    The pages concatenate to a prefix of the filter without gaps or
    repetitions, and once they reach its end to the whole filter.
  */
  lemma {:induction false} PagesConcatenate(d: seq<nat>, pages: nat)
    ensures Pages(d, pages) == Shown(d, pages)
    ensures pages * FilesPerPage >= |d| ==> Pages(d, pages) == d
  {
    if pages > 0 {
      PagesConcatenate(d, pages - 1);
      ShownStep(d, pages - 1);
    }
  }

  /** A page past the end shows nothing. */
  lemma PastTheEnd(d: seq<nat>, page: nat)
    requires page * FilesPerPage >= |d|
    ensures PageSlice(d, page) == []
  {
  }

  /** Page `page` holds exactly the filtered files at positions `page*50 .. page*50 + 49`, in order. */
  lemma PageMembers(d: seq<nat>, page: nat)
    requires StrictlyIncreasing(d)
    ensures |PageSlice(d, page)| <= FilesPerPage
    ensures StrictlyIncreasing(PageSlice(d, page))
    ensures forall j :: 0 <= j < |d| ==>
      (d[j] in PageSlice(d, page) <==> page * FilesPerPage <= j < page * FilesPerPage + FilesPerPage)
  {
    var a, b := Min(page * FilesPerPage, |d|), Min(page * FilesPerPage + FilesPerPage, |d|);
    forall x, y | 0 <= x < y < b - a
      ensures d[a..b][x] < d[a..b][y]
    {
      assert d[a..b][x] == d[a + x] && d[a..b][y] == d[a + y];
    }
    forall j | 0 <= j < |d|
      ensures d[j] in d[a..b] <==> a <= j < b
    {
      if d[j] in d[a..b] {
        var t :| a <= t < b && d[t] == d[j];
        assert !(t < j || j < t);
      }
    }
  }

  // ---------------------------------------------------------------------------
  // The footer below the files

  datatype Footer =
    | LoadMore(loaded: nat, total: nat)   // "Load More (loaded/total files shown)"
    | AllLoaded(total: nat)               // "All total files loaded"

  /** The footer after `pages` pages, `loadedSoFar` being `currentPage * FILES_PER_PAGE`. */
  function FooterAfter(pages: nat, total: nat): Footer
  {
    var loadedSoFar := pages * FilesPerPage;
    if loadedSoFar < total then LoadMore(loadedSoFar, total) else AllLoaded(total)
  }

  /**
    The footer is truthful: it announces that everything is loaded exactly
    when every displayable file is shown, and otherwise counts the files shown.
  */
  lemma FooterTruthful(d: seq<nat>, pages: nat)
    ensures FooterAfter(pages, |d|).AllLoaded? <==> Shown(d, pages) == d
    ensures FooterAfter(pages, |d|).LoadMore? ==>
      FooterAfter(pages, |d|).loaded == |Shown(d, pages)| < |d|
  {
  }

  // ---------------------------------------------------------------------------
  // Rendered blocks and the binary side table

  /** A record of `window.binaryFiles`. */
  datatype BinaryFile = BinaryFile(content: string, filename: string)

  /** What a block shows under its header. */
  datatype Body =
    | Download(fileId: string)   // a binary file with content: the download button for `binaryFiles[fileId]`
    | SourceText                 // any other file with content: its escaped text
    | EmptyNote                  // "(empty or null)"

  /**
    A `file-block` as rendered: the source index (shown as `#index+1`), the
    path and content it displays, the classification (whose label is shown
    for binary files), whether it starts collapsed, and what its body holds.
    The HTML text of each part is a function of these below.
  */
  datatype Block = Block(
    index: nat, path: string, content: Option<string>, fileType: FileType, collapsed: bool, body: Body)

  /** The `file-path` span: the escaped path. */
  function PathHtml(b: Block): string
  {
    EscapeHtml(Some(b.path))
  }

  /**
    The `data-ext` attribute and the `.ext` badge: the lowered text after the
    last dot, without the `'unknown'` fallback. The page writes it unescaped.
  */
  function DataExt(b: Block): string
  {
    Extension(b.path)
  }

  /** The extension as it is safe to write into HTML: escaped like the path. */
  function ExtHtml(b: Block): string
  {
    EscapeHtml(Some(DataExt(b)))
  }

  /** The `.ext` badge appears only when the path has a dot. */
  predicate ShowsExtBadge(b: Block)
  {
    '.' in b.path
  }

  /** The size badge appears for truthy content and measures its length. */
  function SizeBadge(b: Block): Option<nat>
  {
    if Truthy(b.content) then Some(|b.content.value|) else None
  }

  /** The text of the body: the escaped content, the escaped name on the download button, or nothing. */
  function BodyHtml(b: Block): string
  {
    match b.body
    case SourceText => EscapeHtml(b.content)
    case Download(_) => EscapeHtml(Some(LastSegment(b.path, '/')))
    case EmptyNote => ""
  }

  /**
    The text a block shows carries no raw markup, and the source text shown
    decodes back to the file's content.
  */
  lemma BlockTextSafe(b: Block)
    ensures NoMarkup(PathHtml(b)) && NoMarkup(BodyHtml(b)) && NoMarkup(ExtHtml(b))
    ensures UnescapeHtml(PathHtml(b)) == b.path
    ensures UnescapeHtml(ExtHtml(b)) == DataExt(b)
    ensures b.body.SourceText? && b.content.Some? ==> UnescapeHtml(BodyHtml(b)) == b.content.value
  {
    EscapeHtmlSafe(Some(b.path));
    EscapeRoundTrip(Some(b.path));
    EscapeHtmlSafe(Some(DataExt(b)));
    EscapeRoundTrip(Some(DataExt(b)));
    match b.body {
      case SourceText =>
        EscapeHtmlSafe(b.content);
        EscapeRoundTrip(b.content);
      case Download(_) =>
        EscapeHtmlSafe(Some(LastSegment(b.path, '/')));
      case EmptyNote =>
    }
  }

  /**
    The text a block shows carries no raw markup, except the extension the
    page writes unescaped: the code file `a.<script>` is displayed, and its
    `data-ext` attribute, its `.ext` badge and the summary's badge for its key
    all carry `<`.
  */
  lemma RawExtensionMarkup()
    ensures
      var l := Listing(DetectFileType, ["a." + "<script>"], [Some("x")], false);
      && !Skipped(l, 0)
      && !NoMarkup(DataExt(BlockOf(l, 0)))
      && !NoMarkup(ExtKey(l.sources[0]))
  {
    CodeFile("<script>");
    var l := Listing(DetectFileType, ["a." + "<script>"], [Some("x")], false);
    assert DataExt(BlockOf(l, 0)) == "<script>";
    assert "<script>"[0] == '<';
  }

  /**
    The header badges of a block: the size badge appears exactly when the
    body is not the empty note, and measures the content; with the page's
    classifier, a displayed block without the `.ext` badge always carries a
    binary label.
  */
  lemma HeaderBadges(l: Listing, i: nat)
    requires i < |l.sources|
    ensures SizeBadge(BlockOf(l, i)).Some? <==> !BlockOf(l, i).body.EmptyNote?
    ensures SizeBadge(BlockOf(l, i)).Some? ==> SizeBadge(BlockOf(l, i)).value == |ContentAt(l.contents, i).value|
    ensures l.detect == DetectFileType && !Skipped(l, i) && !ShowsExtBadge(BlockOf(l, i)) ==>
      BlockOf(l, i).fileType.kind == Binary
  {
    if l.detect == DetectFileType && !ShowsExtBadge(BlockOf(l, i)) {
      NoDotRule(l.sources[i], ContentAt(l.contents, i));
    }
  }

  /** `src.split('/').pop() || 'binary_file'`. */
  function BinaryName(src: string): string
  {
    var name := LastSegment(src, '/');
    if name == "" then "binary_file" else name
  }

  /** `'binary_' + idx`. */
  function BinaryKey(i: nat): string
  {
    "binary_" + DecimalString(i)
  }

  /** A shown file is put in the side table when it is binary and its content is truthy. */
  predicate StoredBinary(l: Listing, i: nat)
    requires i < |l.sources|
  {
    TypeAt(l.detect, l.sources, l.contents, i).kind == Binary && Truthy(ContentAt(l.contents, i))
  }

  /** The block of the file at index `i`. */
  function BlockOf(l: Listing, i: nat): Block
    requires i < |l.sources|
  {
    var content := ContentAt(l.contents, i);
    var fileType := TypeAt(l.detect, l.sources, l.contents, i);
    var body :=
      if !Truthy(content) then EmptyNote
      else if fileType.kind == Binary then Download(BinaryKey(i))
      else SourceText;
    Block(i, l.sources[i], content, fileType, l.large, body)
  }

  predicate InRange(l: Listing, shown: seq<nat>)
  {
    forall j :: 0 <= j < |shown| ==> shown[j] < |l.sources|
  }

  /** The blocks of the given files, in order. */
  function BlocksOf(l: Listing, shown: seq<nat>): (r: seq<Block>)
    requires InRange(l, shown)
    ensures |r| == |shown|
  {
    if |shown| == 0 then []
    else BlocksOf(l, shown[..|shown| - 1]) + [BlockOf(l, shown[|shown| - 1])]
  }

  /** The side-table update for one shown file. */
  function Register(l: Listing, table: map<string, BinaryFile>, i: nat): map<string, BinaryFile>
    requires i < |l.sources|
  {
    if StoredBinary(l, i) then table[BinaryKey(i) := BinaryFile(l.contents[i].value, BinaryName(l.sources[i]))]
    else table
  }

  /** The side table after showing the given files, in order. */
  function RegisterAll(l: Listing, table: map<string, BinaryFile>, shown: seq<nat>): map<string, BinaryFile>
    requires InRange(l, shown)
  {
    if |shown| == 0 then table
    else Register(l, RegisterAll(l, table, shown[..|shown| - 1]), shown[|shown| - 1])
  }

  lemma {:induction false} BlocksOfConcat(l: Listing, a: seq<nat>, b: seq<nat>)
    requires InRange(l, a) && InRange(l, b)
    ensures InRange(l, a + b)
    ensures BlocksOf(l, a + b) == BlocksOf(l, a) + BlocksOf(l, b)
    decreases |b|
  {
    if |b| == 0 {
      assert a + b == a;
    } else {
      assert (a + b)[..|a + b| - 1] == a + b[..|b| - 1];
      BlocksOfConcat(l, a, b[..|b| - 1]);
    }
  }

  lemma {:induction false} RegisterAllConcat(l: Listing, table: map<string, BinaryFile>, a: seq<nat>, b: seq<nat>)
    requires InRange(l, a) && InRange(l, b)
    ensures InRange(l, a + b)
    ensures RegisterAll(l, table, a + b) == RegisterAll(l, RegisterAll(l, table, a), b)
    decreases |b|
  {
    if |b| == 0 {
      assert a + b == a;
    } else {
      assert (a + b)[..|a + b| - 1] == a + b[..|b| - 1];
      RegisterAllConcat(l, table, a, b[..|b| - 1]);
    }
  }

  /** Different indices get different keys. */
  lemma BinaryKeyInjective(i: nat, j: nat)
    requires BinaryKey(i) == BinaryKey(j)
    ensures i == j
  {
    var p := "binary_";
    assert DecimalString(i) == BinaryKey(i)[|p|..];
    assert DecimalString(j) == BinaryKey(j)[|p|..];
    DecimalInjective(i, j);
  }

  /**
    The side table round trip: starting empty, after showing the files of
    `shown` (each once) the key of file `i` is present exactly when `i` was
    shown and is a binary file with truthy content, and it then holds that
    file's exact content and its download name; every key present is such a key.
  */
  lemma {:induction false} RegisteredLookup(l: Listing, shown: seq<nat>, i: nat)
    requires InRange(l, shown) && Distinct(shown) && i < |l.sources|
    ensures BinaryKey(i) in RegisterAll(l, map[], shown) <==> i in shown && StoredBinary(l, i)
    ensures BinaryKey(i) in RegisterAll(l, map[], shown) ==>
      RegisterAll(l, map[], shown)[BinaryKey(i)] == BinaryFile(l.contents[i].value, BinaryName(l.sources[i]))
    decreases |shown|
  {
    if |shown| > 0 {
      var init, last := shown[..|shown| - 1], shown[|shown| - 1];
      assert Distinct(init) && InRange(l, init);
      RegisteredLookup(l, init, i);
      assert shown == init + [last];
      if BinaryKey(i) == BinaryKey(last) {
        BinaryKeyInjective(i, last);
      }
    }
  }

  /** Every key of the side table belongs to a shown binary file with truthy content. */
  lemma {:induction false} RegisteredKeys(l: Listing, shown: seq<nat>)
    requires InRange(l, shown)
    ensures forall key :: key in RegisterAll(l, map[], shown) ==>
      exists j :: 0 <= j < |shown| && key == BinaryKey(shown[j]) && StoredBinary(l, shown[j])
    decreases |shown|
  {
    if |shown| > 0 {
      var init := shown[..|shown| - 1];
      assert InRange(l, init);
      RegisteredKeys(l, init);
      forall key | key in RegisterAll(l, map[], shown)
        ensures exists j :: 0 <= j < |shown| && key == BinaryKey(shown[j]) && StoredBinary(l, shown[j])
      {
        if key in RegisterAll(l, map[], init) {
          var j :| 0 <= j < |init| && key == BinaryKey(init[j]) && StoredBinary(l, init[j]);
          assert shown[j] == init[j];
        } else {
          assert key == BinaryKey(shown[|shown| - 1]);
        }
      }
    }
  }

  // ---------------------------------------------------------------------------
  // One page

  /** Positions below `k` give valid indices of the filter. */
  lemma DisplayableInRange(l: Listing, k: nat)
    requires k <= |l.sources|
    ensures InRange(l, DisplayableBefore(l, k))
  {
  }

  /** The state of the paging loop after index `idx`, `start` being `currentPage * FILES_PER_PAGE`. */
  ghost predicate PageProgress(l: Listing, start: nat, idx: nat, processed: nat, displayed: nat,
                               emitted: seq<nat>, blocks: seq<Block>, table0: map<string, BinaryFile>,
                               table: map<string, BinaryFile>)
    requires idx <= |l.sources|
  {
    && processed == |DisplayableBefore(l, idx)|
    && displayed == processed - Min(start, processed) <= FilesPerPage
    && emitted == DisplayableBefore(l, idx)[Min(start, processed)..]
    && InRange(l, emitted)
    && blocks == BlocksOf(l, emitted)
    && table == RegisterAll(l, table0, emitted)
  }

  /** A file passed over before the page starts. */
  lemma PassOver(l: Listing, start: nat, idx: nat, processed: nat, emitted: seq<nat>, blocks: seq<Block>,
                 table0: map<string, BinaryFile>, table: map<string, BinaryFile>)
    requires idx < |l.sources| && processed < start
    requires PageProgress(l, start, idx, processed, 0, emitted, blocks, table0, table)
    ensures Skipped(l, idx) ==> PageProgress(l, start, idx + 1, processed, 0, emitted, blocks, table0, table)
    ensures !Skipped(l, idx) ==> PageProgress(l, start, idx + 1, processed + 1, 0, emitted, blocks, table0, table)
  {
  }

  /** A skipped file on the page. */
  lemma SkipOnPage(l: Listing, start: nat, idx: nat, processed: nat, displayed: nat, emitted: seq<nat>,
                   blocks: seq<Block>, table0: map<string, BinaryFile>, table: map<string, BinaryFile>)
    requires idx < |l.sources| && start <= processed && Skipped(l, idx)
    requires PageProgress(l, start, idx, processed, displayed, emitted, blocks, table0, table)
    ensures PageProgress(l, start, idx + 1, processed, displayed, emitted, blocks, table0, table)
  {
  }

  /** A displayed file on the page. */
  lemma ShowOnPage(l: Listing, start: nat, idx: nat, processed: nat, displayed: nat, emitted: seq<nat>,
                   blocks: seq<Block>, table0: map<string, BinaryFile>, table: map<string, BinaryFile>,
                   block: Block, registered: map<string, BinaryFile>)
    requires idx < |l.sources| && start <= processed && !Skipped(l, idx) && displayed < FilesPerPage
    requires PageProgress(l, start, idx, processed, displayed, emitted, blocks, table0, table)
    requires block == BlockOf(l, idx) && registered == Register(l, table, idx)
    ensures PageProgress(l, start, idx + 1, processed + 1, displayed + 1, emitted + [idx],
                         blocks + [block], table0, registered)
  {
    var d := DisplayableBefore(l, idx);
    assert DisplayableBefore(l, idx + 1) == d + [idx];
    assert (d + [idx])[start..] == d[start..] + [idx];
    assert (emitted + [idx])[..|emitted|] == emitted;
  }

  /** When the loop stops, the files emitted are exactly the page's slice of the filter. */
  lemma PageComplete(l: Listing, start: nat, idx: nat, processed: nat, displayed: nat, emitted: seq<nat>,
                     blocks: seq<Block>, table0: map<string, BinaryFile>, table: map<string, BinaryFile>)
    requires idx <= |l.sources| && (idx == |l.sources| || displayed == FilesPerPage)
    requires PageProgress(l, start, idx, processed, displayed, emitted, blocks, table0, table)
    ensures emitted == Displayable(l)[Min(start, |Displayable(l)|)..Min(start + FilesPerPage, |Displayable(l)|)]
  {
    DisplayablePrefix(l, idx, |l.sources|);
  }

  /**
    The body of the paging loop for a displayed file: its block, and the
    side table with the file registered when it is binary and its content
    is truthy.
  */
  method RenderFile(l: Listing, idx: nat, src: string, content: Option<string>, fileType: FileType,
                    table: map<string, BinaryFile>)
    returns (block: Block, registered: map<string, BinaryFile>)
    requires idx < |l.sources| && src == l.sources[idx] && content == ContentAt(l.contents, idx)
    requires fileType == TypeAt(l.detect, l.sources, l.contents, idx)
    ensures block == BlockOf(l, idx)
    ensures registered == Register(l, table, idx)
  {
    registered := table;
    var body := EmptyNote;
    if Truthy(content) {
      if fileType.kind == Binary {
        var fileId := BinaryKey(idx);
        registered := table[fileId := BinaryFile(content.value, BinaryName(src))];
        body := Download(fileId);
      } else {
        body := SourceText;
      }
    }
    block := Block(idx, src, content, fileType, l.large, body);
  }

  /**
    One turn of the paging loop: a file before the page is only counted when
    displayable, a file on the page is passed over when skipped and rendered
    otherwise.
  */
  method Advance(l: Listing, start: nat, idx: nat, processed: nat, displayed: nat, emitted: seq<nat>,
                 blocks: seq<Block>, table0: map<string, BinaryFile>, table: map<string, BinaryFile>)
    returns (idx': nat, processed': nat, displayed': nat, emitted': seq<nat>, blocks': seq<Block>,
             table': map<string, BinaryFile>)
    requires idx < |l.sources| && displayed < FilesPerPage
    requires PageProgress(l, start, idx, processed, displayed, emitted, blocks, table0, table)
    ensures idx' == idx + 1
    ensures PageProgress(l, start, idx', processed', displayed', emitted', blocks', table0, table')
  {
    idx', processed', displayed', emitted', blocks', table' := idx + 1, processed, displayed, emitted, blocks, table;
    if processed < start {
      var fileType := l.detect(l.sources[idx], ContentAt(l.contents, idx));
      PassOver(l, start, idx, processed, emitted, blocks, table0, table);
      if fileType.kind != Skip {
        processed' := processed + 1;
      }
    } else {
      processed', displayed', emitted', blocks', table' :=
        AdvanceOnPage(l, start, idx, processed, displayed, emitted, blocks, table0, table);
    }
  }

  /** A turn of the paging loop once the page has been reached: a skipped file is passed over, any other shown. */
  method AdvanceOnPage(l: Listing, start: nat, idx: nat, processed: nat, displayed: nat, emitted: seq<nat>,
                       blocks: seq<Block>, table0: map<string, BinaryFile>, table: map<string, BinaryFile>)
    returns (processed': nat, displayed': nat, emitted': seq<nat>, blocks': seq<Block>,
             table': map<string, BinaryFile>)
    requires idx < |l.sources| && displayed < FilesPerPage && start <= processed
    requires PageProgress(l, start, idx, processed, displayed, emitted, blocks, table0, table)
    ensures PageProgress(l, start, idx + 1, processed', displayed', emitted', blocks', table0, table')
  {
    var src := l.sources[idx];
    var content := ContentAt(l.contents, idx);
    var fileType := l.detect(src, content);
    if fileType.kind == Skip {
      SkipOnPage(l, start, idx, processed, displayed, emitted, blocks, table0, table);
      processed', displayed', emitted', blocks', table' := processed, displayed, emitted, blocks, table;
    } else {
      var block, registered := RenderFile(l, idx, src, content, fileType, table);
      ShowOnPage(l, start, idx, processed, displayed, emitted, blocks, table0, table, block, registered);
      processed', displayed' := processed + 1, displayed + 1;
      emitted', blocks', table' := emitted + [idx], blocks + [block], registered;
    }
  }

  /**
    The loop of `renderFilesPage`: pass over the first `page * 50` displayable
    files, then emit the next displayable ones until fifty are shown or the
    sources run out, building each block and registering each binary file
    with truthy content as it goes.
  */
  method CollectPage(l: Listing, page: nat, table0: map<string, BinaryFile>)
    returns (emitted: seq<nat>, blocks: seq<Block>, table: map<string, BinaryFile>)
    ensures emitted == PageSlice(Displayable(l), page)
    ensures InRange(l, emitted)
    ensures blocks == BlocksOf(l, emitted)
    ensures table == RegisterAll(l, table0, emitted)
  {
    var start := page * FilesPerPage;
    var displayed: nat, processed: nat := 0, 0;
    emitted, blocks, table := [], [], table0;
    var idx: nat := 0;
    while idx < |l.sources| && displayed < FilesPerPage
      invariant idx <= |l.sources|
      invariant PageProgress(l, start, idx, processed, displayed, emitted, blocks, table0, table)
    {
      idx, processed, displayed, emitted, blocks, table :=
        Advance(l, start, idx, processed, displayed, emitted, blocks, table0, table);
    }
    PageComplete(l, start, idx, processed, displayed, emitted, blocks, table0, table);
  }

  // ---------------------------------------------------------------------------
  // The session

  /** Pages and prefixes of a sequence of valid indices are valid indices. */
  lemma SliceInRange(l: Listing, d: seq<nat>, pages: nat)
    requires InRange(l, d)
    ensures InRange(l, PageSlice(d, pages)) && InRange(l, Shown(d, pages))
  {
  }

  /** The blocks in the files container after `pages` pages: those of the files shown, in filter order. */
  function RenderedAfter(l: Listing, pages: nat): seq<Block>
  {
    DisplayableInRange(l, |l.sources|);
    SliceInRange(l, Displayable(l), pages);
    BlocksOf(l, Shown(Displayable(l), pages))
  }

  /** The side table after `pages` pages: the registrations of the files shown, in filter order. */
  function TableAfter(l: Listing, pages: nat): map<string, BinaryFile>
  {
    DisplayableInRange(l, |l.sources|);
    SliceInRange(l, Displayable(l), pages);
    RegisterAll(l, map[], Shown(Displayable(l), pages))
  }

  /** The footer after `pages` pages; there is none before the first. */
  function FooterShown(l: Listing, pages: nat): Option<Footer>
  {
    if pages == 0 then None else Some(FooterAfter(pages, |Displayable(l)|))
  }

  /** The blocks of the files shown after one more page are those before it followed by the page's. */
  lemma BlocksOfShownStep(l: Listing, d: seq<nat>, pages: nat)
    requires InRange(l, d)
    ensures InRange(l, Shown(d, pages)) && InRange(l, PageSlice(d, pages)) && InRange(l, Shown(d, pages + 1))
    ensures BlocksOf(l, Shown(d, pages + 1)) == BlocksOf(l, Shown(d, pages)) + BlocksOf(l, PageSlice(d, pages))
  {
    SliceInRange(l, d, pages);
    ShownStep(d, pages);
    BlocksOfConcat(l, Shown(d, pages), PageSlice(d, pages));
  }

  /** Registering the files shown after one more page is registering those before it, then the page's. */
  lemma RegisterAllShownStep(l: Listing, d: seq<nat>, pages: nat)
    requires InRange(l, d)
    ensures InRange(l, Shown(d, pages)) && InRange(l, PageSlice(d, pages)) && InRange(l, Shown(d, pages + 1))
    ensures RegisterAll(l, map[], Shown(d, pages + 1))
            == RegisterAll(l, RegisterAll(l, map[], Shown(d, pages)), PageSlice(d, pages))
  {
    SliceInRange(l, d, pages);
    ShownStep(d, pages);
    RegisterAllConcat(l, map[], Shown(d, pages), PageSlice(d, pages));
  }

  /** The files shown so far are distinct. */
  lemma ShownDistinct(l: Listing, pages: nat)
    ensures Distinct(Shown(Displayable(l), pages))
  {
    var d := Displayable(l);
    DisplayableIncreasing(l, |l.sources|);
    assert Shown(d, pages) == d[..Min(pages * FilesPerPage, |d|)];
  }

  /** Rendering page `page` appends its blocks and its registrations to those of the earlier pages. */
  lemma NextPage(l: Listing, page: nat, rendered: seq<Block>, table: map<string, BinaryFile>,
                 emitted: seq<nat>, blocks: seq<Block>, table': map<string, BinaryFile>)
    requires rendered == RenderedAfter(l, page) && table == TableAfter(l, page)
    requires emitted == PageSlice(Displayable(l), page) && InRange(l, emitted)
    requires blocks == BlocksOf(l, emitted) && table' == RegisterAll(l, table, emitted)
    ensures rendered + blocks == RenderedAfter(l, page + 1)
    ensures table' == TableAfter(l, page + 1)
    ensures Some(FooterAfter(page + 1, |Displayable(l)|)) == FooterShown(l, page + 1)
  {
    DisplayableInRange(l, |l.sources|);
    BlocksOfShownStep(l, Displayable(l), page);
    RegisterAllShownStep(l, Displayable(l), page);
  }

  /**
    While the files are on the page, the map is usable and the page shows
    exactly the pages rendered so far.
  */
  ghost predicate SessionConsistent(detect: Detector, sourceMapData: Option<SourceMap>, currentPage: nat,
                                    binaryFiles: map<string, BinaryFile>, filesContainer: bool,
                                    rendered: seq<Block>, footer: Option<Footer>)
  {
    filesContainer ==>
      && sourceMapData.Some? && Usable(sourceMapData.value)
      && rendered == RenderedAfter(ListingOf(detect, sourceMapData.value), currentPage)
      && binaryFiles == TableAfter(ListingOf(detect, sourceMapData.value), currentPage)
      && footer == FooterShown(ListingOf(detect, sourceMapData.value), currentPage)
  }

  /**
    The page state of the tool: the current map, the page cursor, the side
    table of binary files, and the output area. `filesContainer` stands for
    the presence of the `files-container` element, which only a successful
    unmap puts on the page and any later replacement of the output removes;
    `rendered` is its content and `footer` that of the load-more element.
  */
  class Session {
    /**
      The classifier of the page, `detectFileType`. The session's proofs hold
      for any classifier; the constructor fixes this one.
    */
    const detect: Detector
    var sourceMapData: Option<SourceMap>
    var currentPage: nat
    var binaryFiles: map<string, BinaryFile>
    var filesContainer: bool
    var rendered: seq<Block>
    var footer: Option<Footer>

    /** While the files are on the page, they are exactly the pages rendered so far of a usable map. */
    ghost predicate Valid()
      reads this
    {
      SessionConsistent(detect, sourceMapData, currentPage, binaryFiles, filesContainer, rendered, footer)
    }

    /** The state when the page loads. */
    constructor ()
      ensures Valid()
      ensures detect == DetectFileType
      ensures sourceMapData == None && currentPage == 0 && binaryFiles == map[]
      ensures !filesContainer && rendered == [] && footer == None
    {
      detect := DetectFileType;
      sourceMapData := None;
      currentPage := 0;
      binaryFiles := map[];
      filesContainer := false;
      rendered := [];
      footer := None;
    }

    /**
      `unmapSourceMap(sm)` with the output it returns put on the page: the
      map and a page cursor of zero are stored first; a map without sources
      or without contents fails, leaving no files on the page and the side
      table as it was; a usable one is summarized, the side table is emptied
      and an empty files container appears.
    */
    method UnmapSourceMap(sm: SourceMap) returns (report: UnmapReport)
      requires Valid()
      modifies this
      ensures Valid()
      ensures sourceMapData == Some(sm) && currentPage == 0
      ensures rendered == [] && footer == None
      ensures filesContainer <==> Usable(sm)
      ensures Usable(sm) ==> binaryFiles == map[]
      ensures !Usable(sm) ==> binaryFiles == old(binaryFiles)
      ensures report.header == HeaderOf(sm)
      ensures report.outcome.Failure? <==> !Usable(sm)
      ensures !NonEmpty(sm.sources) ==> report.outcome == Failure(NoSources)
      ensures NonEmpty(sm.sources) && !NonEmpty(sm.sourcesContent) ==> report.outcome == Failure(NoSourcesContent)
      ensures report.outcome.Success? ==>
        IsSummaryOf(DetectFileType, sm.sources.value, sm.sourcesContent.value, report.outcome.value)
    {
      sourceMapData := Some(sm);
      currentPage := 0;
      report := Summarize(sm);
      rendered, footer := [], None;
      if report.outcome.Success? {
        binaryFiles := map[];
        filesContainer := true;
      } else {
        filesContainer := false;
      }
    }

    /** The output area is replaced by a message (loading, an error, or cleared): the files leave the page. */
    method ReplaceOutput()
      requires Valid()
      modifies this
      ensures Valid()
      ensures !filesContainer && rendered == [] && footer == None
      ensures sourceMapData == old(sourceMapData) && currentPage == old(currentPage)
      ensures binaryFiles == old(binaryFiles)
    {
      filesContainer, rendered, footer := false, [], None;
    }

    /**
      `renderFilesPage()`: without a map or without the files container it
      does nothing; otherwise it appends the blocks of the next page of
      displayable files, registers their binary files, advances the cursor
      and updates the footer. It returns the indices of the files emitted.
    */
    method RenderPage() returns (emitted: seq<nat>)
      requires Valid()
      modifies this
      ensures Valid()
      ensures sourceMapData == old(sourceMapData) && filesContainer == old(filesContainer)
      ensures !filesContainer ==>
        emitted == [] && currentPage == old(currentPage) && binaryFiles == old(binaryFiles)
        && rendered == old(rendered) && footer == old(footer)
      ensures filesContainer ==>
        && emitted == PageSlice(Displayable(ListingOf(detect, sourceMapData.value)), old(currentPage))
        && currentPage == old(currentPage) + 1
        && rendered == old(rendered) + BlocksOf(ListingOf(detect, sourceMapData.value), emitted)
        && binaryFiles == RegisterAll(ListingOf(detect, sourceMapData.value), old(binaryFiles), emitted)
        && footer == Some(FooterAfter(currentPage, |Displayable(ListingOf(detect, sourceMapData.value))|))
    {
      if sourceMapData.None? || !filesContainer {
        return [];
      }
      var l := ListingOf(detect, sourceMapData.value);
      var page, shown, table0 := currentPage, rendered, binaryFiles;
      var blocks, table;
      emitted, blocks, table := CollectPage(l, page, table0);
      var totalDisplayable := |Displayable(l)|;
      NextPage(l, page, shown, table0, emitted, blocks, table);
      assert SessionConsistent(detect, sourceMapData, page + 1, table, true, shown + blocks, Some(FooterAfter(page + 1, totalDisplayable)));
      rendered, binaryFiles, currentPage, footer := shown + blocks, table, page + 1, Some(FooterAfter(page + 1, totalDisplayable));
    }

    /** The lookup of `downloadBinary(fileId)`: the registered record, or not found. */
    method DownloadBinary(fileId: string) returns (file: Option<BinaryFile>)
      ensures fileId in binaryFiles ==> file == Some(binaryFiles[fileId])
      ensures fileId !in binaryFiles ==> file == None
    {
      if fileId in binaryFiles {
        file := Some(binaryFiles[fileId]);
      } else {
        file := None;
      }
    }

    /**
      The download round trip while the files are on the page: the button of
      file `i` finds a record exactly when `i` has been shown and is a binary
      file with truthy content, and the record holds its content and name.
    */
    lemma DownloadRoundTrip(i: nat)
      requires Valid() && filesContainer
      requires i < |sourceMapData.value.sources.value|
      ensures BinaryKey(i) in binaryFiles <==>
        i in Shown(Displayable(ListingOf(detect, sourceMapData.value)), currentPage)
        && StoredBinary(ListingOf(detect, sourceMapData.value), i)
      ensures BinaryKey(i) in binaryFiles ==>
        binaryFiles[BinaryKey(i)] == BinaryFile(sourceMapData.value.sourcesContent.value[i].value,
                                                BinaryName(sourceMapData.value.sources.value[i]))
    {
      var l := ListingOf(detect, sourceMapData.value);
      var d := Displayable(l);
      DisplayableInRange(l, |l.sources|);
      SliceInRange(l, d, currentPage);
      ShownDistinct(l, currentPage);
      RegisteredLookup(l, Shown(d, currentPage), i);
    }
  }
}

=== FILE: scanner.dfy ===
/**
  `findSecrets` and `findEndpoints`: scan the text of the output area with a
  catalogue of patterns, drop repeated matches of each pattern, and report
  per pattern how many distinct matches it found and which ones, together
  with the grand total that decides the headline.

  The regular expressions themselves are not modelled: the scan receives,
  for each pattern of the catalogue in order, the list of matches
  `output.match(regex)` yields, `[]` standing for `null`.
*/
module Scanner {
  import opened Wrappers
  import opened Seqs

  /** The names of `SECRET_PATTERNS`, in catalogue order. */
  const SecretPatternNames: seq<string> := [
    "AWS Access Key", "AWS Secret Key", "API Key", "API Secret", "Secret", "Token", "Password",
    "Bearer Token", "JWT Token", "Private Key", "Google API Key", "GitHub Token", "Slack Token",
    "Stripe Key", "Firebase", "Hardcoded Credentials", "Authorization Header", "Client Secret"
  ]

  /** The names of the URL patterns of `findEndpoints`, in catalogue order. */
  const EndpointPatternNames: seq<string> := ["Full URLs", "API Paths", "GraphQL", "REST Endpoints"]

  /** Below this many characters the output is taken to hold no source map yet. */
  const MinOutputLength: nat := 50

  /** `findEndpoints` lists at most this many matches of one pattern. */
  const EndpointListLimit: nat := 50

  /** A scan: its catalogue and the most matches it lists per pattern (`None`: all of them). */
  datatype ScanKind = ScanKind(names: seq<string>, limit: Option<nat>)

  const SecretScan: ScanKind := ScanKind(SecretPatternNames, None)
  const EndpointScan: ScanKind := ScanKind(EndpointPatternNames, Some(EndpointListLimit))

  /**
    The report of one pattern that matched: its name, the number of distinct
    matches ("(N found)"), the ones listed, and how many more there are
    ("... and N more", printed only when positive).
  */
  datatype Group = Group(name: string, found: nat, listed: seq<string>, more: nat)

  /**
    What a scan shows: the "First load a source map!" alert, the message
    that nothing was found, or the "FOUND N" headline over the groups.
  */
  datatype Outcome =
    | NotLoaded
    | NothingFound
    | Found(total: nat, groups: seq<Group>)

  // ---------------------------------------------------------------------------
  // Removing repeated matches

  /** `[...new Set(s)]`: the elements of `s` without repetitions, each at its first occurrence. */
  function Dedup(s: seq<string>): (r: seq<string>)
    ensures Distinct(r)
    ensures forall x :: x in r <==> x in s
    ensures |r| <= |s|
    decreases |s|
  {
    if |s| == 0 then []
    else
      var p := Dedup(s[..|s| - 1]);
      assert s == s[..|s| - 1] + [s[|s| - 1]];
      if s[|s| - 1] in p then p else p + [s[|s| - 1]]
  }

  /** What is kept of a sequence stays in front, in the same order, whatever follows it. */
  lemma {:induction false} DedupPrefix(s: seq<string>, t: seq<string>)
    ensures |Dedup(s)| <= |Dedup(s + t)|
    ensures Dedup(s + t)[..|Dedup(s)|] == Dedup(s)
    decreases |t|
  {
    if |t| == 0 {
      assert s + t == s;
    } else {
      var u := s + t[..|t| - 1];
      assert (s + t)[..|s + t| - 1] == u;
      DedupPrefix(s, t[..|t| - 1]);
    }
  }

  /** A sequence without repetitions is kept whole. */
  lemma {:induction false} DedupDistinct(s: seq<string>)
    requires Distinct(s)
    ensures Dedup(s) == s
    decreases |s|
  {
    if |s| > 0 {
      var init := s[..|s| - 1];
      assert Distinct(init);
      DedupDistinct(init);
      assert s[|s| - 1] !in init;
      assert init + [s[|s| - 1]] == s;
    }
  }

  /** The number kept is the number of distinct elements, as `Set.size` counts them. */
  lemma DedupCount(s: seq<string>)
    ensures |Dedup(s)| == |Elements(s)|
  {
    DistinctCardinality(Dedup(s));
    assert Elements(Dedup(s)) == Elements(s);
  }

  // ---------------------------------------------------------------------------
  // One pattern

  /** The report of a pattern with the given matches: `matches.slice(0, limit)` listed, the rest counted. */
  function GroupOf(name: string, matches: seq<string>, limit: Option<nat>): Group
  {
    var unique := Dedup(matches);
    var listed := if limit.Some? && |unique| > limit.value then unique[..limit.value] else unique;
    Group(name, |unique|, listed, |unique| - |listed|)
  }

  /** A group counts the distinct matches of its pattern. */
  lemma GroupFound(name: string, matches: seq<string>, limit: Option<nat>)
    ensures GroupOf(name, matches, limit).found == |Elements(matches)|
  {
    DedupCount(matches);
  }

  /**
    A group counts the distinct matches, lists them in first-seen order up to
    the limit with none twice, and counts exactly those it leaves out; the
    overflow line appears only when the limit is exceeded, and then exactly
    `limit` are listed and the rest counted; without a limit every distinct
    match is listed.
  */
  lemma GroupListing(name: string, matches: seq<string>, limit: Option<nat>)
    ensures GroupOf(name, matches, limit).found == |Elements(matches)|
    ensures |GroupOf(name, matches, limit).listed| + GroupOf(name, matches, limit).more
            == GroupOf(name, matches, limit).found
    ensures GroupOf(name, matches, limit).listed
            == Dedup(matches)[..|GroupOf(name, matches, limit).listed|]
    ensures Distinct(GroupOf(name, matches, limit).listed)
    ensures forall m :: m in GroupOf(name, matches, limit).listed ==> m in matches
    ensures limit.Some? ==> |GroupOf(name, matches, limit).listed| <= limit.value
    ensures GroupOf(name, matches, limit).more > 0 <==> limit.Some? && |Elements(matches)| > limit.value
    ensures limit.Some? && |Elements(matches)| > limit.value ==>
      |GroupOf(name, matches, limit).listed| == limit.value
      && GroupOf(name, matches, limit).more == |Elements(matches)| - limit.value
    ensures limit.None? ==> forall m :: m in matches <==> m in GroupOf(name, matches, limit).listed
  {
    GroupFound(name, matches, limit);
    var unique := Dedup(matches);
    var g := GroupOf(name, matches, limit);
    if limit.Some? && |unique| > limit.value {
      forall i, j | 0 <= i < j < |g.listed|
        ensures g.listed[i] != g.listed[j]
      {
        assert g.listed[i] == unique[i] && g.listed[j] == unique[j];
      }
      forall m | m in g.listed
        ensures m in matches
      {
        var i :| 0 <= i < |g.listed| && g.listed[i] == m;
        assert unique[i] == m;
      }
    }
  }

  // ---------------------------------------------------------------------------
  // The catalogue

  /** The groups of a scan: one per pattern that matched, in catalogue order. */
  function GroupsOf(names: seq<string>, matches: seq<seq<string>>, limit: Option<nat>): (r: seq<Group>)
    requires |names| == |matches|
    ensures |r| <= |names|
  {
    if |names| == 0 then []
    else
      var n := |names| - 1;
      GroupsOf(names[..n], matches[..n], limit)
        + (if matches[n] == [] then [] else [GroupOf(names[n], matches[n], limit)])
  }

  /** `foundCount`: the distinct matches of all groups together. */
  function TotalFound(groups: seq<Group>): nat
  {
    if |groups| == 0 then 0 else TotalFound(groups[..|groups| - 1]) + groups[|groups| - 1].found
  }

  /** The number of distinct matches per pattern, summed over the catalogue. */
  function DistinctMatches(matches: seq<seq<string>>): nat
  {
    if |matches| == 0 then 0 else DistinctMatches(matches[..|matches| - 1]) + |Elements(matches[|matches| - 1])|
  }

  /** Appending a group adds its count to the total. */
  lemma TotalFoundAppend(groups: seq<Group>, g: Group)
    ensures TotalFound(groups + [g]) == TotalFound(groups) + g.found
  {
    assert (groups + [g])[..|groups|] == groups;
  }

  /**
    The total a scan reports counts every distinct match of every pattern
    once; a match found by two patterns counts for both.
  */
  lemma {:induction false} TotalCountsDistinct(names: seq<string>, matches: seq<seq<string>>, limit: Option<nat>)
    requires |names| == |matches|
    ensures TotalFound(GroupsOf(names, matches, limit)) == DistinctMatches(matches)
    decreases |names|
  {
    if |names| > 0 {
      var n := |names| - 1;
      TotalCountsDistinct(names[..n], matches[..n], limit);
      TotalFoundStep(names, matches, limit);
    }
  }

  /** The last pattern of the catalogue adds its distinct matches to the total. */
  lemma TotalFoundStep(names: seq<string>, matches: seq<seq<string>>, limit: Option<nat>)
    requires |names| == |matches| > 0
    ensures TotalFound(GroupsOf(names, matches, limit))
            == TotalFound(GroupsOf(names[..|names| - 1], matches[..|names| - 1], limit))
               + |Elements(matches[|names| - 1])|
  {
    var n := |names| - 1;
    var prior := GroupsOf(names[..n], matches[..n], limit);
    if matches[n] == [] {
      assert prior + [] == prior;
      assert Elements(matches[n]) == {};
    } else {
      var g := GroupOf(names[n], matches[n], limit);
      TotalFoundAppend(prior, g);
      GroupFound(names[n], matches[n], limit);
    }
  }

  /** No distinct match at all exactly when no pattern matched. */
  lemma {:induction false} NoDistinctMatches(matches: seq<seq<string>>)
    ensures DistinctMatches(matches) == 0 <==> forall k :: 0 <= k < |matches| ==> matches[k] == []
    decreases |matches|
  {
    if |matches| > 0 {
      var n := |matches| - 1;
      NoDistinctMatches(matches[..n]);
      if matches[n] != [] {
        assert matches[n][0] in Elements(matches[n]);
      } else {
        assert Elements(matches[n]) == {};
        assert forall k :: 0 <= k < n ==> matches[..n][k] == matches[k];
      }
    }
  }

  /**
    The report says nothing was found exactly when no pattern matched, and
    then it has no groups.
  */
  lemma NothingMatched(names: seq<string>, matches: seq<seq<string>>, limit: Option<nat>)
    requires |names| == |matches|
    ensures TotalFound(GroupsOf(names, matches, limit)) == 0
            <==> forall k :: 0 <= k < |matches| ==> matches[k] == []
    ensures TotalFound(GroupsOf(names, matches, limit)) == 0 ==> GroupsOf(names, matches, limit) == []
  {
    TotalCountsDistinct(names, matches, limit);
    NoDistinctMatches(matches);
    if TotalFound(GroupsOf(names, matches, limit)) == 0 {
      NoGroupsWithoutMatches(names, matches, limit);
    }
  }

  /** When no pattern matched there is no group. */
  lemma {:induction false} NoGroupsWithoutMatches(names: seq<string>, matches: seq<seq<string>>, limit: Option<nat>)
    requires |names| == |matches|
    requires forall k :: 0 <= k < |matches| ==> matches[k] == []
    ensures GroupsOf(names, matches, limit) == []
    decreases |names|
  {
    if |names| > 0 {
      var n := |names| - 1;
      assert forall k :: 0 <= k < n ==> matches[..n][k] == matches[k];
      NoGroupsWithoutMatches(names[..n], matches[..n], limit);
    }
  }

  // ---------------------------------------------------------------------------
  // The scan

  /**
    `findSecrets` (with `SecretScan`) and `findEndpoints` (with
    `EndpointScan`): alert when the output is too short to hold a map,
    otherwise go through the catalogue accumulating the groups and the total,
    and choose the headline by the total.
  */
  method Scan(kind: ScanKind, output: string, matches: seq<seq<string>>) returns (o: Outcome)
    requires |matches| == |kind.names|
    ensures o.NotLoaded? <==> |output| < MinOutputLength
    ensures o.NothingFound? <==> |output| >= MinOutputLength && TotalFound(GroupsOf(kind.names, matches, kind.limit)) == 0
    ensures o.Found? ==> o.groups == GroupsOf(kind.names, matches, kind.limit)
    ensures o.Found? ==> o.total == TotalFound(o.groups) > 0
  {
    if |output| < MinOutputLength {
      return NotLoaded;
    }
    var foundCount := 0;
    var groups := [];
    for k := 0 to |matches|
      invariant groups == GroupsOf(kind.names[..k], matches[..k], kind.limit)
      invariant foundCount == TotalFound(groups)
    {
      assert kind.names[..k + 1][..k] == kind.names[..k];
      assert matches[..k + 1][..k] == matches[..k];
      if matches[k] != [] {
        var group := GroupOf(kind.names[k], matches[k], kind.limit);
        assert (groups + [group])[..|groups|] == groups;
        foundCount := foundCount + group.found;
        groups := groups + [group];
      }
    }
    assert kind.names[..|matches|] == kind.names && matches[..|matches|] == matches;
    if foundCount == 0 {
      o := NothingFound;
    } else {
      o := Found(foundCount, groups);
    }
  }
}

=== FILE: strings.dfy ===
/**
  The JavaScript string operations the unmapper relies on, written out over
  `string`: `split`/`pop`/`join`, `startsWith`, `toLowerCase`, `trim`, a
  first-occurrence search standing in for the one regular expression of the
  URL extraction, number-to-decimal conversion, and JavaScript truthiness of
  an optional string.
*/
module Strings {
  import opened Wrappers

  /** JavaScript truthiness of a value that is a string, `null` or `undefined`: `""` is falsy. */
  predicate Truthy(s: Option<string>)
  {
    s.Some? && s.value != ""
  }

  /** `s.startsWith(prefix)`. */
  predicate StartsWith(s: string, prefix: string)
  {
    |prefix| <= |s| && s[..|prefix|] == prefix
  }

  // ---------------------------------------------------------------------------
  // split / pop / join

  /** `s.split(sep)` for a one-character separator: the pieces between separators, never empty. */
  function Split(s: string, sep: char): (parts: seq<string>)
    ensures |parts| >= 1
    decreases |s|
  {
    if |s| == 0 then [""]
    else if s[0] == sep then [""] + Split(s[1..], sep)
    else
      var rest := Split(s[1..], sep);
      [[s[0]] + rest[0]] + rest[1..]
  }

  /** No piece contains the separator, and there is more than one piece exactly when `s` contains it. */
  lemma {:induction false} SplitPieces(s: string, sep: char)
    ensures forall k :: 0 <= k < |Split(s, sep)| ==> sep !in Split(s, sep)[k]
    ensures |Split(s, sep)| == 1 <==> sep !in s
    decreases |s|
  {
    if |s| > 0 {
      SplitPieces(s[1..], sep);
      var rest := Split(s[1..], sep);
      if s[0] != sep {
        forall k | 0 <= k < |Split(s, sep)|
          ensures sep !in Split(s, sep)[k]
        {
          if k == 0 {
            assert Split(s, sep)[0] == [s[0]] + rest[0];
          } else {
            assert Split(s, sep)[k] == rest[k];
          }
        }
      }
    }
  }

  /** `parts.join(sep)`; joining no parts gives `""`. */
  function Join(parts: seq<string>, sep: char): string
  {
    if |parts| == 0 then ""
    else if |parts| == 1 then parts[0]
    else parts[0] + [sep] + Join(parts[1..], sep)
  }

  /** Splitting and joining again on the same separator gives back the string. */
  lemma {:induction false} JoinSplit(s: string, sep: char)
    ensures Join(Split(s, sep), sep) == s
    decreases |s|
  {
    if |s| > 0 {
      var rest := Split(s[1..], sep);
      JoinSplit(s[1..], sep);
      if s[0] == sep {
        assert ([""] + rest)[1..] == rest;
      } else if |rest| > 1 {
        assert ([[s[0]] + rest[0]] + rest[1..])[1..] == rest[1..];
      }
    }
  }

  /** Joining all parts equals joining all but the last, the separator, and the last. */
  lemma {:induction false} JoinInitLast(parts: seq<string>, sep: char)
    requires |parts| >= 2
    ensures Join(parts, sep) == Join(parts[..|parts| - 1], sep) + [sep] + parts[|parts| - 1]
    decreases |parts|
  {
    if |parts| > 2 {
      JoinInitLast(parts[1..], sep);
      assert parts[1..][..|parts| - 2] == parts[..|parts| - 1][1..];
    }
  }

  /** A string without the separator splits into itself alone. */
  lemma {:induction false} SplitWithoutSeparator(s: string, sep: char)
    requires sep !in s
    ensures Split(s, sep) == [s]
    decreases |s|
  {
    if |s| > 0 {
      SplitWithoutSeparator(s[1..], sep);
      assert [s[0]] + s[1..] == s;
    }
  }

  /** A separator-free head followed by a separator splits off as the first piece. */
  lemma {:induction false} SplitAfterHead(head: string, sep: char, tail: string)
    requires sep !in head
    ensures Split(head + [sep] + tail, sep) == [head] + Split(tail, sep)
    decreases |head|
  {
    if |head| > 0 {
      SplitAfterHead(head[1..], sep, tail);
      assert (head + [sep] + tail)[1..] == head[1..] + [sep] + tail;
      assert [head[0]] + head[1..] == head;
    } else {
      assert (head + [sep] + tail)[1..] == tail;
    }
  }

  /** `s.split(sep).pop()`: the text after the last separator, or all of `s` when there is none. */
  function LastSegment(s: string, sep: char): string
  {
    var parts := Split(s, sep);
    parts[|parts| - 1]
  }

  /** `s.split(sep).slice(0, -1).join(sep)`: the text before the last separator, `""` when there is none. */
  function BeforeLastSegment(s: string, sep: char): string
  {
    var parts := Split(s, sep);
    Join(parts[..|parts| - 1], sep)
  }

  /**
    The shape of the two halves: with no separator the last segment is the whole
    string and nothing precedes it; otherwise the string is the part before the
    last separator, the separator, and a last segment free of separators.
  */
  lemma LastSegmentShape(s: string, sep: char)
    ensures sep !in LastSegment(s, sep)
    ensures sep !in s ==> LastSegment(s, sep) == s && BeforeLastSegment(s, sep) == ""
    ensures sep in s ==> s == BeforeLastSegment(s, sep) + [sep] + LastSegment(s, sep)
    ensures sep in s ==> |LastSegment(s, sep)| < |s|
  {
    var parts := Split(s, sep);
    SplitPieces(s, sep);
    JoinSplit(s, sep);
    if sep in s {
      JoinInitLast(parts, sep);
    }
  }

  /** The last segment after a separator-free head and a separator is the last segment of the rest. */
  lemma LastSegmentAfterHead(head: string, sep: char, tail: string)
    requires sep !in head
    ensures LastSegment(head + [sep] + tail, sep) == LastSegment(tail, sep)
  {
    SplitAfterHead(head, sep, tail);
  }

  /** A separator-free string is its own last segment. */
  lemma LastSegmentWithoutSeparator(s: string, sep: char)
    requires sep !in s
    ensures LastSegment(s, sep) == s
  {
    SplitWithoutSeparator(s, sep);
  }

  // ---------------------------------------------------------------------------
  // case

  /** `toLowerCase` on one character, for the ASCII letters. */
  function LowerChar(c: char): char
  {
    if 'A' <= c <= 'Z' then (c as int + 32) as char else c
  }

  /** `s.toLowerCase()`, for the ASCII letters. */
  function ToLower(s: string): (r: string)
    ensures |r| == |s|
    ensures forall i :: 0 <= i < |s| ==> r[i] == LowerChar(s[i])
  {
    seq(|s|, i requires 0 <= i < |s| => LowerChar(s[i]))
  }

  // ---------------------------------------------------------------------------
  // searching

  /** `pat` occurs in `s` at position `i`. */
  predicate MatchAt(s: string, pat: string, i: nat)
  {
    i + |pat| <= |s| && s[i..i + |pat|] == pat
  }

  /** The first position at or after `from` where `pat` occurs, if any. */
  function IndexOfFrom(s: string, pat: string, from: nat): (r: Option<nat>)
    requires from <= |s|
    ensures r.Some? ==> from <= r.value && MatchAt(s, pat, r.value)
    ensures r.Some? ==> forall j :: from <= j < r.value ==> !MatchAt(s, pat, j)
    ensures r.None? ==> forall j :: from <= j ==> !MatchAt(s, pat, j)
    decreases |s| - from
  {
    if MatchAt(s, pat, from) then Some(from)
    else if from == |s| then None
    else IndexOfFrom(s, pat, from + 1)
  }

  /** `s.indexOf(pat)`, with `None` for -1. */
  function IndexOf(s: string, pat: string): Option<nat>
  {
    IndexOfFrom(s, pat, 0)
  }

  /** The characters that a regular-expression `.` does not match. */
  predicate IsLineTerminator(c: char)
  {
    c == '\n' || c == '\r' || c == '\U{2028}' || c == '\U{2029}'
  }

  /** What a greedy `(.*)` captures at the start of `s`: everything up to the first line terminator. */
  function TakeLine(s: string): (r: string)
    ensures |r| <= |s| && r == s[..|r|]
    ensures forall i :: 0 <= i < |r| ==> !IsLineTerminator(r[i])
    ensures |r| < |s| ==> IsLineTerminator(s[|r|])
  {
    if |s| == 0 || IsLineTerminator(s[0]) then ""
    else [s[0]] + TakeLine(s[1..])
  }

  // ---------------------------------------------------------------------------
  // trim

  /** The white space and line terminators that `String.prototype.trim` removes. */
  predicate IsTrimmable(c: char)
  {
    c == '\t' || c == '\U{B}' || c == '\U{C}' || c == ' ' || c == '\U{A0}' || c == '\U{FEFF}'
    || c == '\U{1680}' || ('\U{2000}' <= c <= '\U{200A}') || c == '\U{202F}' || c == '\U{205F}'
    || c == '\U{3000}'
    || IsLineTerminator(c)
  }

  /** Removes leading trimmable characters. */
  function TrimStart(s: string): (r: string)
    ensures |r| <= |s| && r == s[|s| - |r|..]
    ensures forall i :: 0 <= i < |s| - |r| ==> IsTrimmable(s[i])
    ensures |r| > 0 ==> !IsTrimmable(r[0])
  {
    if |s| > 0 && IsTrimmable(s[0]) then TrimStart(s[1..]) else s
  }

  /** Removes trailing trimmable characters. */
  function TrimEnd(s: string): (r: string)
    ensures |r| <= |s| && r == s[..|r|]
    ensures forall i :: |r| <= i < |s| ==> IsTrimmable(s[i])
    ensures |r| > 0 ==> !IsTrimmable(r[|r| - 1])
  {
    if |s| > 0 && IsTrimmable(s[|s| - 1]) then TrimEnd(s[..|s| - 1]) else s
  }

  /** `s.trim()`. */
  function Trim(s: string): string
  {
    TrimEnd(TrimStart(s))
  }

  // ---------------------------------------------------------------------------
  // numbers

  function Digit(d: nat): char
    requires d < 10
  {
    (48 + d) as char
  }

  /** The decimal text of a non-negative integer, as `"" + n` produces it. */
  function DecimalString(n: nat): (r: string)
    ensures |r| >= 1
    ensures n >= 10 ==> |r| >= 2
    ensures forall i :: 0 <= i < |r| ==> '0' <= r[i] <= '9'
  {
    if n < 10 then [Digit(n)] else DecimalString(n / 10) + [Digit(n % 10)]
  }

  /** Different numbers have different decimal texts. */
  lemma {:induction false} DecimalInjective(a: nat, b: nat)
    requires DecimalString(a) == DecimalString(b)
    ensures a == b
    decreases a
  {
    if a >= 10 && b >= 10 {
      var ra, rb := DecimalString(a), DecimalString(b);
      assert ra[|ra| - 1] == Digit(a % 10) && rb[|rb| - 1] == Digit(b % 10);
      assert ra[..|ra| - 1] == DecimalString(a / 10);
      assert rb[..|rb| - 1] == DecimalString(b / 10);
      DecimalInjective(a / 10, b / 10);
    }
  }
}

=== FILE: unmapper.dfy ===
/**
  The source-map document and the summary `unmapSourceMap` computes for it:
  validation of `sources` and `sourcesContent` (in that order), the tally of
  non-skipped files per extension with a counter of skipped ones, and the
  ranking of extensions by descending count.
*/
module Unmapper {
  import opened Wrappers
  import opened Strings
  import opened Seqs
  import opened Classifier

  /**
    An already-parsed source map. An absent `sources` or `sourcesContent`
    field is `None`; a `null` entry of `sourcesContent` is `None` too.
    `serializedSize` is the length of `JSON.stringify(sm)`, which the model
    takes as given.
  */
  datatype SourceMap = SourceMap(
    sources: Option<seq<string>>,
    sourcesContent: Option<seq<Option<string>>>,
    serializedSize: nat)

  /** Above this serialized length a map is "large" and its files start collapsed. */
  const LargeMapThreshold: nat := 5000000

  predicate IsLarge(sm: SourceMap)
  {
    sm.serializedSize > LargeMapThreshold
  }

  /** `sourcesContent[i]`: reading past the end gives `undefined`. */
  function ContentAt(contents: seq<Option<string>>, i: nat): Option<string>
  {
    if i < |contents| then contents[i] else None
  }

  /**
    A file classifier of the shape of `detectFileType`. The tally and the
    pages are written for any classifier and used with `DetectFileType`, so
    that their proofs need nothing of the classifier's internals.
  */
  type Detector = (string, Option<string>) -> FileType

  /** The classification of the `i`-th source. */
  function TypeAt(detect: Detector, sources: seq<string>, contents: seq<Option<string>>, i: nat): FileType
    requires i < |sources|
  {
    detect(sources[i], ContentAt(contents, i))
  }

  predicate SkippedAt(detect: Detector, sources: seq<string>, contents: seq<Option<string>>, i: nat)
    requires i < |sources|
  {
    TypeAt(detect, sources, contents, i).kind == Skip
  }

  /** `src.split('.').pop().toLowerCase() || 'unknown'`: the key a file is counted under. */
  function ExtKey(src: string): string
  {
    var ext := Extension(src);
    if ext == "" then "unknown" else ext
  }

  // ---------------------------------------------------------------------------
  // Reference definitions of the tally

  /** How many of the first `k` sources are skipped. */
  function SkipCount(detect: Detector, sources: seq<string>, contents: seq<Option<string>>, k: nat): nat
    requires k <= |sources|
  {
    if k == 0 then 0
    else SkipCount(detect, sources, contents, k - 1) + (if SkippedAt(detect, sources, contents, k - 1) then 1 else 0)
  }

  /** How many of the first `k` sources are not skipped and are counted under `key`. */
  function CountExt(detect: Detector, sources: seq<string>, contents: seq<Option<string>>, key: string, k: nat): nat
    requires k <= |sources|
  {
    if k == 0 then 0
    else
      var here := if !SkippedAt(detect, sources, contents, k - 1) && ExtKey(sources[k - 1]) == key then 1 else 0;
      CountExt(detect, sources, contents, key, k - 1) + here
  }

  /** Passing over one more source adds to the count of its key if it is not skipped. */
  lemma CountStep(detect: Detector, sources: seq<string>, contents: seq<Option<string>>, k: nat, key: string)
    requires k < |sources|
    ensures CountExt(detect, sources, contents, key, k + 1) ==
      CountExt(detect, sources, contents, key, k) + (if !SkippedAt(detect, sources, contents, k) && ExtKey(sources[k]) == key then 1 else 0)
  {
  }

  /** An `[ext, count]` pair of `Object.entries(extCounts)`. */
  type Entry = (string, nat)

  /** The entries of `counts`, keys in the order given. */
  function Entries(order: seq<string>, counts: map<string, nat>): seq<Entry>
    requires forall k :: k in order ==> k in counts
  {
    if |order| == 0 then []
    else Entries(order[..|order| - 1], counts) + [(order[|order| - 1], counts[order[|order| - 1]])]
  }

  /** The sum of the counts of some entries. */
  function Total(entries: seq<Entry>): nat
  {
    if |entries| == 0 then 0 else Total(entries[..|entries| - 1]) + entries[|entries| - 1].1
  }

  lemma {:induction false} TotalConcat(a: seq<Entry>, b: seq<Entry>)
    ensures Total(a + b) == Total(a) + Total(b)
    decreases |b|
  {
    if |b| == 0 {
      assert a + b == a;
    } else {
      assert (a + b)[..|a + b| - 1] == a + b[..|b| - 1];
      TotalConcat(a, b[..|b| - 1]);
    }
  }

  lemma {:induction false} EntriesOtherKey(order: seq<string>, counts: map<string, nat>, key: string, v: nat)
    requires forall k :: k in order ==> k in counts
    requires key !in order
    ensures Entries(order, counts[key := v]) == Entries(order, counts)
    decreases |order|
  {
    if |order| > 0 {
      EntriesOtherKey(order[..|order| - 1], counts, key, v);
    }
  }

  /** Adding one to a listed key adds one to the total. */
  lemma {:induction false} EntriesIncrement(order: seq<string>, counts: map<string, nat>, key: string)
    requires forall k :: k in order ==> k in counts
    requires Distinct(order) && key in order
    ensures Total(Entries(order, counts[key := counts[key] + 1])) == Total(Entries(order, counts)) + 1
    decreases |order|
  {
    var init := order[..|order| - 1];
    assert Distinct(init);
    if order[|order| - 1] == key {
      assert key !in init;
      EntriesOtherKey(init, counts, key, counts[key] + 1);
    } else {
      assert key in init;
      EntriesIncrement(init, counts, key);
    }
  }

  /** Listing a new key with count one adds one to the total. */
  lemma EntriesAppendNew(order: seq<string>, counts: map<string, nat>, key: string)
    requires forall k :: k in order ==> k in counts
    requires key !in order
    ensures Total(Entries(order + [key], counts[key := 1])) == Total(Entries(order, counts)) + 1
  {
    assert (order + [key])[..|order|] == order;
    EntriesOtherKey(order, counts, key, 1);
  }

  /** Membership in the entries: exactly the listed keys, each with its count. */
  lemma {:induction false} EntriesMembers(order: seq<string>, counts: map<string, nat>)
    requires forall k :: k in order ==> k in counts
    ensures |Entries(order, counts)| == |order|
    ensures forall e :: e in Entries(order, counts) <==> e.0 in order && e.1 == counts[e.0]
    decreases |order|
  {
    if |order| > 0 {
      var init := order[..|order| - 1];
      EntriesMembers(init, counts);
      assert order == init + [order[|order| - 1]];
    }
  }

  // ---------------------------------------------------------------------------
  // The tally loop

  /** `extCounts[key] || 0`. */
  function CountOf(counts: map<string, nat>, key: string): nat
  {
    if key in counts then counts[key] else 0
  }

  /** `counts` holds the count of every key among the first `idx` sources. */
  ghost predicate KeysCounted(detect: Detector, sources: seq<string>, contents: seq<Option<string>>, idx: nat,
                              counts: map<string, nat>)
    requires idx <= |sources|
  {
    forall key :: CountExt(detect, sources, contents, key, idx) == CountOf(counts, key)
  }

  /** `order` lists the keys of `counts` once each, and no listed count is zero. */
  ghost predicate Listed(order: seq<string>, counts: map<string, nat>)
  {
    && Distinct(order)
    && (forall key :: key in order <==> key in counts)
    && (forall key :: key in counts ==> counts[key] > 0)
  }

  /**
    After the first `idx` sources: `skipped` counts the skipped ones, `counts`
    holds every key's count, `order` lists its keys, and the counts and the
    skips add up to `idx`.
  */
  ghost predicate Tallied(detect: Detector, sources: seq<string>, contents: seq<Option<string>>, idx: nat,
                          order: seq<string>, counts: map<string, nat>, skipped: nat)
    requires idx <= |sources|
  {
    && skipped == SkipCount(detect, sources, contents, idx)
    && KeysCounted(detect, sources, contents, idx, counts)
    && Listed(order, counts)
    && Total(Entries(order, counts)) + skipped == idx
  }

  /** Passing over a skipped source changes no key's count. */
  lemma SkippedStep(detect: Detector, sources: seq<string>, contents: seq<Option<string>>, idx: nat, counts: map<string, nat>)
    requires idx < |sources| && SkippedAt(detect, sources, contents, idx)
    requires KeysCounted(detect, sources, contents, idx, counts)
    ensures KeysCounted(detect, sources, contents, idx + 1, counts)
  {
    forall key
      ensures CountExt(detect, sources, contents, key, idx + 1) == CountOf(counts, key)
    {
      CountStep(detect, sources, contents, idx, key);
    }
  }

  /** Passing over a counted source adds one to the count of its key and to no other. */
  lemma CountedStep(detect: Detector, sources: seq<string>, contents: seq<Option<string>>, idx: nat,
                    counts: map<string, nat>, ext: string)
    requires idx < |sources| && !SkippedAt(detect, sources, contents, idx) && ext == ExtKey(sources[idx])
    requires KeysCounted(detect, sources, contents, idx, counts)
    ensures KeysCounted(detect, sources, contents, idx + 1, counts[ext := CountOf(counts, ext) + 1])
  {
    var counts' := counts[ext := CountOf(counts, ext) + 1];
    forall key
      ensures CountExt(detect, sources, contents, key, idx + 1) == CountOf(counts', key)
    {
      CountStep(detect, sources, contents, idx, key);
    }
  }

  /** Bumping a key already listed keeps the listing and adds one to the total. */
  lemma ListIncrement(order: seq<string>, counts: map<string, nat>, ext: string)
    requires Listed(order, counts) && ext in counts
    ensures Listed(order, counts[ext := counts[ext] + 1])
    ensures Total(Entries(order, counts[ext := counts[ext] + 1])) == Total(Entries(order, counts)) + 1
  {
    assert ext in order;
    EntriesIncrement(order, counts, ext);
  }

  /** Appending a new key with count one keeps the listing and adds one to the total. */
  lemma ListAppend(order: seq<string>, counts: map<string, nat>, ext: string)
    requires Listed(order, counts) && ext !in counts
    ensures Listed(order + [ext], counts[ext := 1])
    ensures Total(Entries(order + [ext], counts[ext := 1])) == Total(Entries(order, counts)) + 1
  {
    assert ext !in order;
    EntriesAppendNew(order, counts, ext);
    assert Distinct(order + [ext]);
  }

  /** A skipped source bumps the skip counter and nothing else. */
  lemma TallySkip(detect: Detector, sources: seq<string>, contents: seq<Option<string>>, idx: nat,
                  order: seq<string>, counts: map<string, nat>, skipped: nat)
    requires idx < |sources| && SkippedAt(detect, sources, contents, idx)
    requires Tallied(detect, sources, contents, idx, order, counts, skipped)
    ensures Tallied(detect, sources, contents, idx + 1, order, counts, skipped + 1)
  {
    SkippedStep(detect, sources, contents, idx, counts);
  }

  /** A counted source whose key was met before bumps that key's count. */
  lemma TallyIncrement(detect: Detector, sources: seq<string>, contents: seq<Option<string>>, idx: nat,
                       order: seq<string>, counts: map<string, nat>, skipped: nat, ext: string)
    requires idx < |sources| && !SkippedAt(detect, sources, contents, idx) && ext == ExtKey(sources[idx])
    requires Tallied(detect, sources, contents, idx, order, counts, skipped)
    requires ext in counts
    ensures Tallied(detect, sources, contents, idx + 1, order, counts[ext := counts[ext] + 1], skipped)
  {
    CountedStep(detect, sources, contents, idx, counts, ext);
    ListIncrement(order, counts, ext);
  }

  /** A counted source with a new key appends the key with count one. */
  lemma TallyAppend(detect: Detector, sources: seq<string>, contents: seq<Option<string>>, idx: nat,
                    order: seq<string>, counts: map<string, nat>, skipped: nat, ext: string)
    requires idx < |sources| && !SkippedAt(detect, sources, contents, idx) && ext == ExtKey(sources[idx])
    requires Tallied(detect, sources, contents, idx, order, counts, skipped)
    requires ext !in counts
    ensures Tallied(detect, sources, contents, idx + 1, order + [ext], counts[ext := 1], skipped)
  {
    CountedStep(detect, sources, contents, idx, counts, ext);
    ListAppend(order, counts, ext);
  }

  /**
    The `forEach` of `unmapSourceMap`: skipped files bump `skippedCount`;
    every other file bumps the count of its extension key, a new key being
    appended to the keys met so far.
  */
  method TallyExtensions(detect: Detector, sources: seq<string>, contents: seq<Option<string>>)
    returns (order: seq<string>, counts: map<string, nat>, skipped: nat)
    ensures skipped == SkipCount(detect, sources, contents, |sources|)
    ensures forall key :: CountExt(detect, sources, contents, key, |sources|) == CountOf(counts, key)
    ensures forall key :: key in counts ==> counts[key] > 0
    ensures Distinct(order) && forall key :: key in order <==> key in counts
    ensures Total(Entries(order, counts)) + skipped == |sources|
  {
    order, counts, skipped := [], map[], 0;
    var idx := 0;
    while idx < |sources|
      invariant 0 <= idx <= |sources|
      invariant Tallied(detect, sources, contents, idx, order, counts, skipped)
    {
      var fileType := TypeAt(detect, sources, contents, idx);
      if fileType.kind == Skip {
        TallySkip(detect, sources, contents, idx, order, counts, skipped);
        skipped := skipped + 1;
      } else {
        var ext := ExtKey(sources[idx]);
        if ext in counts {
          TallyIncrement(detect, sources, contents, idx, order, counts, skipped, ext);
          counts := counts[ext := counts[ext] + 1];
        } else {
          TallyAppend(detect, sources, contents, idx, order, counts, skipped, ext);
          order := order + [ext];
          counts := counts[ext := 1];
        }
      }
      idx := idx + 1;
    }
  }

  // ---------------------------------------------------------------------------
  // The tally on a plain object, as the page does it

  /**
    What `extCounts[ext]` can hold or read. A plain object `{}` owns no keys
    but inherits from `Object.prototype`: reading `__proto__` gives the
    prototype object, reading `constructor` gives the `Object` function, and
    every other key an extension can be reads `undefined` (the other
    inherited names hold upper-case letters, and extensions are lowered).
  */
  datatype JsValue = Undefined | Number(n: nat) | Text(s: string) | PrototypeObject | ObjectFunction

  /** The string the `Object` function converts to. */
  const ObjectFunctionText: string := "function Object() { [native code] }"

  /** A plain object: its own keys in insertion order, and their values. */
  datatype PlainObject = PlainObject(keys: seq<string>, own: map<string, JsValue>)

  /** The two lower-case names a plain object inherits. */
  predicate Inherited(key: string)
  {
    key == "__proto__" || key == "constructor"
  }

  /** `obj[key]`: an own property, or what the prototype provides. */
  function Get(obj: PlainObject, key: string): JsValue
  {
    if key in obj.own then obj.own[key]
    else if key == "__proto__" then PrototypeObject
    else if key == "constructor" then ObjectFunction
    else Undefined
  }

  /** `(v || 0) + 1`: a number for a falsy value or a number, string concatenation for anything else. */
  function PlusOne(v: JsValue): JsValue
  {
    match v
    case Undefined => Number(1)
    case Number(n) => Number(n + 1)
    case Text(s) => if s == "" then Number(1) else Text(s + "1")
    case PrototypeObject => Text("[object Object]1")
    case ObjectFunction => Text(ObjectFunctionText + "1")
  }

  /**
    `obj[key] = v` for a number or a string: the `__proto__` accessor
    ignores such a value; any other key becomes or stays an own property.
  */
  function Put(obj: PlainObject, key: string, v: JsValue): PlainObject
    requires v.Number? || v.Text?
  {
    if key == "__proto__" then obj
    else if key in obj.own then obj.(own := obj.own[key := v])
    else PlainObject(obj.keys + [key], obj.own[key := v])
  }

  /** `extCounts` and `skippedCount` after the first `k` turns of the `forEach`. */
  datatype ObjectTally = ObjectTally(extCounts: PlainObject, skippedCount: nat)

  /** The tally of `unmapSourceMap` on a plain object, over the first `k` sources. */
  function TallyOnObject(detect: Detector, sources: seq<string>, contents: seq<Option<string>>, k: nat): ObjectTally
    requires k <= |sources|
  {
    if k == 0 then ObjectTally(PlainObject([], map[]), 0)
    else
      var t := TallyOnObject(detect, sources, contents, k - 1);
      if SkippedAt(detect, sources, contents, k - 1) then t.(skippedCount := t.skippedCount + 1)
      else
        var ext := ExtKey(sources[k - 1]);
        t.(extCounts := Put(t.extCounts, ext, PlusOne(Get(t.extCounts, ext))))
  }

  /** The object holds, as a number, the count of every key that has one among the first `k` sources, and no other key. */
  ghost predicate HoldsCounts(detect: Detector, sources: seq<string>, contents: seq<Option<string>>, k: nat, obj: PlainObject)
    requires k <= |sources|
  {
    forall key ::
      && (key in obj.own <==> CountExt(detect, sources, contents, key, k) > 0)
      && (key in obj.own ==> obj.own[key] == Number(CountExt(detect, sources, contents, key, k)))
  }

  /** A skipped source leaves the object as it is. */
  lemma SkipOnObject(detect: Detector, sources: seq<string>, contents: seq<Option<string>>, k: nat, obj: PlainObject)
    requires k < |sources| && SkippedAt(detect, sources, contents, k)
    requires HoldsCounts(detect, sources, contents, k, obj)
    ensures HoldsCounts(detect, sources, contents, k + 1, obj)
  {
    forall key
      ensures CountExt(detect, sources, contents, key, k + 1) == CountExt(detect, sources, contents, key, k)
    {
      CountStep(detect, sources, contents, k, key);
    }
  }

  /** A counted source whose key is not inherited adds one to its own numeric property. */
  lemma CountOnObject(detect: Detector, sources: seq<string>, contents: seq<Option<string>>, k: nat, obj: PlainObject)
    requires k < |sources| && !SkippedAt(detect, sources, contents, k) && !Inherited(ExtKey(sources[k]))
    requires HoldsCounts(detect, sources, contents, k, obj)
    ensures HoldsCounts(detect, sources, contents, k + 1,
                        Put(obj, ExtKey(sources[k]), PlusOne(Get(obj, ExtKey(sources[k])))))
  {
    var ext := ExtKey(sources[k]);
    var obj' := Put(obj, ext, PlusOne(Get(obj, ext)));
    assert obj'.own == obj.own[ext := Number(CountExt(detect, sources, contents, ext, k) + 1)];
    forall key
      ensures CountExt(detect, sources, contents, key, k + 1) ==
        CountExt(detect, sources, contents, key, k) + (if key == ext then 1 else 0)
    {
      CountStep(detect, sources, contents, k, key);
    }
  }

  /**
    As long as no counted file has an inherited name as its key, the object
    holds numbers, and exactly the counts of the reference tally.
  */
  lemma {:induction false} TallyOnObjectAgrees(detect: Detector, sources: seq<string>, contents: seq<Option<string>>, k: nat)
    requires k <= |sources|
    requires forall i :: 0 <= i < k && !SkippedAt(detect, sources, contents, i) ==> !Inherited(ExtKey(sources[i]))
    ensures TallyOnObject(detect, sources, contents, k).skippedCount == SkipCount(detect, sources, contents, k)
    ensures HoldsCounts(detect, sources, contents, k, TallyOnObject(detect, sources, contents, k).extCounts)
    decreases k
  {
    if k > 0 {
      TallyOnObjectAgrees(detect, sources, contents, k - 1);
      var obj := TallyOnObject(detect, sources, contents, k - 1).extCounts;
      if SkippedAt(detect, sources, contents, k - 1) {
        SkipOnObject(detect, sources, contents, k - 1, obj);
      } else {
        CountOnObject(detect, sources, contents, k - 1, obj);
      }
    }
  }

  /**
    `a.<key>`, for a long key without dots or upper-case letters, holding
    `x`, is a code file counted under `key`.
  */
  lemma CodeFile(key: string)
    requires '.' !in key && |key| > 5
    requires forall i :: 0 <= i < |key| ==> !('A' <= key[i] <= 'Z')
    ensures Extension("a." + key) == key && ExtKey("a." + key) == key
    ensures DetectFileType("a." + key, Some("x")).kind == Code
  {
    var filename := "a." + key;
    assert filename == "a" + ['.'] + key;
    assert filename[1] == '.';
    LastSegmentAfterHead("a", '.', key);
    LastSegmentWithoutSeparator(key, '.');
    assert ToLower(key) == key;
    LongUnlisted(key);
    ContentRules(filename, Some("x"));
    NoNonPrintable("x");
    assert "x"[..SampleSize("x")] == "x";
    assert !StartsWith("x", "data:");
  }

  /**
    A code file named `a.__proto__` is counted by the reference tally, but on
    the plain object it is neither counted nor skipped: the counts and the
    skips no longer add up to the number of sources.
  */
  lemma ProtoFileUncounted()
    ensures
      var sources, contents := ["a." + "__proto__"], [Some("x")];
      && SkipCount(DetectFileType, sources, contents, 1) == 0
      && CountExt(DetectFileType, sources, contents, "__proto__", 1) == 1
      && TallyOnObject(DetectFileType, sources, contents, 1) == ObjectTally(PlainObject([], map[]), 0)
  {
    CodeFile("__proto__");
  }

  /**
    A code file named `a.constructor` is counted once by the reference tally,
    but on the plain object its "count" is a string, which the ranking's
    comparator turns into `NaN`.
  */
  lemma ConstructorCountIsText()
    ensures
      var sources, contents := ["a." + "constructor"], [Some("x")];
      && CountExt(DetectFileType, sources, contents, "constructor", 1) == 1
      && TallyOnObject(DetectFileType, sources, contents, 1).extCounts
         == PlainObject(["constructor"], map["constructor" := Text(ObjectFunctionText + "1")])
  {
    CodeFile("constructor");
  }

  // ---------------------------------------------------------------------------
  // Ranking by descending count

  predicate SortedByCountDesc(entries: seq<Entry>)
  {
    forall i, j :: 0 <= i < j < |entries| ==> entries[i].1 >= entries[j].1
  }

  /** Inserts `e` before the first entry with a strictly smaller count. */
  function InsertByCount(e: Entry, sorted: seq<Entry>): (r: seq<Entry>)
    ensures |r| == |sorted| + 1
  {
    if |sorted| == 0 || e.1 > sorted[0].1 then [e] + sorted
    else [sorted[0]] + InsertByCount(e, sorted[1..])
  }

  /** `entries.sort((a, b) => b[1] - a[1])`, as a stable insertion sort. */
  function SortByCount(entries: seq<Entry>): (r: seq<Entry>)
    ensures |r| == |entries|
  {
    if |entries| == 0 then []
    else InsertByCount(entries[|entries| - 1], SortByCount(entries[..|entries| - 1]))
  }

  lemma {:induction false} InsertMultiset(e: Entry, sorted: seq<Entry>)
    ensures multiset(InsertByCount(e, sorted)) == multiset(sorted) + multiset{e}
    decreases |sorted|
  {
    if |sorted| > 0 && e.1 <= sorted[0].1 {
      InsertMultiset(e, sorted[1..]);
      assert sorted == [sorted[0]] + sorted[1..];
    }
  }

  lemma {:induction false} InsertSorted(e: Entry, sorted: seq<Entry>)
    requires SortedByCountDesc(sorted)
    ensures SortedByCountDesc(InsertByCount(e, sorted))
    decreases |sorted|
  {
    if |sorted| > 0 && e.1 <= sorted[0].1 {
      var rest := InsertByCount(e, sorted[1..]);
      InsertSorted(e, sorted[1..]);
      InsertMultiset(e, sorted[1..]);
      forall k | 0 <= k < |rest|
        ensures sorted[0].1 >= rest[k].1
      {
        assert rest[k] in multiset(sorted[1..]) + multiset{e};
      }
    }
  }

  lemma TotalSingle(x: Entry)
    ensures Total([x]) == x.1
  {
    assert [x][..0] == [];
  }

  lemma {:induction false} InsertTotal(e: Entry, sorted: seq<Entry>)
    ensures Total(InsertByCount(e, sorted)) == Total(sorted) + e.1
    decreases |sorted|
  {
    TotalSingle(e);
    if |sorted| == 0 || e.1 > sorted[0].1 {
      TotalConcat([e], sorted);
    } else {
      InsertTotal(e, sorted[1..]);
      TotalConcat([sorted[0]], InsertByCount(e, sorted[1..]));
      TotalConcat([sorted[0]], sorted[1..]);
      assert sorted == [sorted[0]] + sorted[1..];
      TotalSingle(sorted[0]);
    }
  }

  /** The ranking is in descending order of count. */
  lemma {:induction false} SortSorted(entries: seq<Entry>)
    ensures SortedByCountDesc(SortByCount(entries))
    decreases |entries|
  {
    if |entries| > 0 {
      SortSorted(entries[..|entries| - 1]);
      InsertSorted(entries[|entries| - 1], SortByCount(entries[..|entries| - 1]));
    }
  }

  /** The ranking is a permutation of the entries. */
  lemma {:induction false} SortPermutation(entries: seq<Entry>)
    ensures multiset(SortByCount(entries)) == multiset(entries)
    decreases |entries|
  {
    if |entries| > 0 {
      var init := entries[..|entries| - 1];
      SortPermutation(init);
      InsertMultiset(entries[|entries| - 1], SortByCount(init));
      assert entries == init + [entries[|entries| - 1]];
    }
  }

  /** The ranking keeps the total of the counts. */
  lemma {:induction false} SortTotal(entries: seq<Entry>)
    ensures Total(SortByCount(entries)) == Total(entries)
    decreases |entries|
  {
    if |entries| > 0 {
      var init := entries[..|entries| - 1];
      SortTotal(init);
      InsertTotal(entries[|entries| - 1], SortByCount(init));
    }
  }

  // ---------------------------------------------------------------------------
  // The summary

  datatype UnmapError = NoSources | NoSourcesContent

  /** The figures shown above the result whether or not the map is usable. */
  datatype Header = Header(sourceCount: nat, contentCount: nat, large: bool)

  datatype Summary = Summary(counts: map<string, nat>, ranking: seq<Entry>, skipped: nat)

  datatype UnmapReport = UnmapReport(header: Header, outcome: Result<Summary, UnmapError>)

  predicate NonEmpty<T>(field: Option<seq<T>>)
  {
    field.Some? && |field.value| > 0
  }

  /** A map with at least one source and at least one content entry. */
  predicate Usable(sm: SourceMap)
  {
    NonEmpty(sm.sources) && NonEmpty(sm.sourcesContent)
  }

  function HeaderOf(sm: SourceMap): Header
  {
    Header(
      if sm.sources.Some? then |sm.sources.value| else 0,
      if sm.sourcesContent.Some? then |sm.sourcesContent.value| else 0,
      IsLarge(sm))
  }

  /** What the summary of a usable map says about its sources. */
  ghost predicate IsSummaryOf(detect: Detector, sources: seq<string>, contents: seq<Option<string>>, s: Summary)
  {
    && s.skipped == SkipCount(detect, sources, contents, |sources|)
    && (forall key :: key in s.counts <==> CountExt(detect, sources, contents, key, |sources|) > 0)
    && (forall key :: key in s.counts ==> s.counts[key] == CountExt(detect, sources, contents, key, |sources|))
    && Total(s.ranking) + s.skipped == |sources|
    && SortedByCountDesc(s.ranking)
    && (forall e :: e in s.ranking <==> e.0 in s.counts && e.1 == s.counts[e.0])
    && |s.ranking| == |s.counts|
  }

  /** The ranking of a listing holds exactly the listed keys, each with its count. */
  lemma RankingMembers(order: seq<string>, counts: map<string, nat>)
    requires Listed(order, counts)
    ensures forall e :: e in SortByCount(Entries(order, counts)) <==> e.0 in counts && e.1 == counts[e.0]
  {
    var entries := Entries(order, counts);
    var ranking := SortByCount(entries);
    EntriesMembers(order, counts);
    SortPermutation(entries);
    assert forall e :: e in ranking <==> e in multiset(entries);
  }

  /** The ranking of a listing has one entry per key. */
  lemma RankingSize(order: seq<string>, counts: map<string, nat>)
    requires Listed(order, counts)
    ensures |SortByCount(Entries(order, counts))| == |counts|
  {
    EntriesMembers(order, counts);
    DistinctCardinality(order);
    assert Elements(order) == counts.Keys;
  }

  /** The tally, ranked, is a summary of the sources. */
  lemma RankedTally(detect: Detector, sources: seq<string>, contents: seq<Option<string>>,
                    order: seq<string>, counts: map<string, nat>, skipped: nat)
    requires skipped == SkipCount(detect, sources, contents, |sources|)
    requires forall key :: CountExt(detect, sources, contents, key, |sources|) == CountOf(counts, key)
    requires forall key :: key in counts ==> counts[key] > 0
    requires Distinct(order) && forall key :: key in order <==> key in counts
    requires Total(Entries(order, counts)) + skipped == |sources|
    ensures IsSummaryOf(detect, sources, contents, Summary(counts, SortByCount(Entries(order, counts)), skipped))
  {
    SortTotal(Entries(order, counts));
    SortSorted(Entries(order, counts));
    RankingMembers(order, counts);
    RankingSize(order, counts);
  }

  /**
    The computation of `unmapSourceMap` apart from the session state: the
    header, then the `sources` check before the `sourcesContent` check, then
    the tally and its ranking.
  */
  method Summarize(sm: SourceMap) returns (report: UnmapReport)
    ensures report.header == HeaderOf(sm)
    ensures report.outcome.Failure? <==> !Usable(sm)
    ensures !NonEmpty(sm.sources) ==> report.outcome == Failure(NoSources)
    ensures NonEmpty(sm.sources) && !NonEmpty(sm.sourcesContent) ==> report.outcome == Failure(NoSourcesContent)
    ensures report.outcome.Success? ==>
      IsSummaryOf(DetectFileType, sm.sources.value, sm.sourcesContent.value, report.outcome.value)
  {
    var header := HeaderOf(sm);
    if !NonEmpty(sm.sources) {
      return UnmapReport(header, Failure(NoSources));
    }
    if !NonEmpty(sm.sourcesContent) {
      return UnmapReport(header, Failure(NoSourcesContent));
    }
    var sources, contents := sm.sources.value, sm.sourcesContent.value;
    var order, counts, skipped := TallyExtensions(DetectFileType, sources, contents);
    var ranking := SortByCount(Entries(order, counts));
    RankedTally(DetectFileType, sources, contents, order, counts, skipped);
    report := UnmapReport(header, Success(Summary(counts, ranking, skipped)));
  }
}

=== FILE: wrappers.dfy ===
/** Option and Result, the two shapes used for "may be absent" and "may fail". */
module Wrappers {

  datatype Option<T> = None | Some(value: T)

  datatype Result<T, E> = Success(value: T) | Failure(error: E)
}

/** Generic facts about sequences used by several components. */
module Seqs {

  /** No element occurs twice. */
  predicate Distinct<T(==)>(s: seq<T>)
  {
    forall i, j :: 0 <= i < j < |s| ==> s[i] != s[j]
  }

  /** The set of elements of a sequence. */
  function Elements<T>(s: seq<T>): set<T>
  {
    set x | x in s
  }

  /** A sequence without repetitions has as many elements as its set has members. */
  lemma {:induction false} DistinctCardinality<T>(s: seq<T>)
    requires Distinct(s)
    ensures |Elements(s)| == |s|
  {
    if |s| > 0 {
      var init := s[..|s| - 1];
      assert Distinct(init);
      DistinctCardinality(init);
      assert Elements(s) == Elements(init) + {s[|s| - 1]};
      assert s[|s| - 1] !in Elements(init);
    }
  }
}
